=== FILE: README.md ===
# Pacemaker scheduler: collective instances and primitive roles

This project is a Dafny model of part of Pacemaker's scheduler. The scheduler
turns a cluster's configuration and status into the actions each node must
perform. The modelled part has three pieces. Code they call but that is not
modelled is a parameter, and the contracts state each operation's result in
terms of what those parameters return; the "## Model" table lists what is
proved, and "## Left out" what is not:

- **Instance assignment** (`InstanceAssign`). Clone instances and bundle
  replicas are placed on nodes. The first pass keeps instances on the node
  where they already run, up to an optimal number per node, whenever their
  node-choice accepts that node. The second pass hands each remaining
  instance to its node-choice with no preference, places it where that
  choice falls within the collective's per-node limit, and bans every
  instance beyond the total limit.
- **Collective actions** (`InstanceActions`, `Interleave`). The collective's
  start, started, stop and stopped pseudo-actions are derived from the states
  of its instances. The flags of the collective's actions are summarised from
  its children's actions. The task a notification is about is recovered from
  the action key. Orderings between two collectives are either interleaved,
  pairing each instance with a compatible peer on the same node, or applied
  directly to every runnable child action.
- **Primitive resources** (`RoleMachine`, `PrimitiveAssign`,
  `PrimitiveActions`). The role state machine is given by the next-role table
  and the transition-function table. Node choice includes the preferred node,
  the tie-break that keeps a resource on its current node, and the order in
  which colocations are applied. A promote is allowed only when every start
  on the node is runnable.

The action vocabulary (`Actions`) follows the task enumeration, including its
layout rule that every "completed" task is the regular task plus one.

Modelling choices:

- Node tables are finite maps from node identifiers to a weight and a count.
  Scores are unbounded integers, with ±1000000 standing for ±INFINITY.
- The C code mixes `int` and `unsigned int` when it compares the total limit
  with the number of available nodes and when it divides the two. These
  conversions are written out in `InstanceAssign.AllColoc` and
  `InstanceAssign.OptimalPerNode`.
- Collaborators the modelled files only call are function-typed parameters.
  The contract each one is relied on for is a named predicate, such as
  `InstanceAssign.SoundAssigner` or `PrimitiveAssign.WellBehaved`.
  Collaborators modelled this way:
  - the node-choice of an instance;
  - colocation scoring;
  - a child's own action-flags computation;
  - the node sort.
- `assign_instance` adds no colocations itself; only the stickiness loop
  calls `append_parent_colocation`
  (lib/pacemaker/pcmk_sched_instances.c:346).

## Model

| member | source | states |
|---|---|---|
| Actions.OfOrdinal | include/crm/common/actions.h:72-92 | exactly the values 0 to 13 name a task, and each one names the task whose enumeration value it is |
| Actions.OrdinalInjective | include/crm/common/actions.h:72-92 | distinct tasks have distinct enumeration values |
| Actions.CompletionIsSuccessor | include/crm/common/actions.h:76-89 | every completed task's value is its regular task's value plus one |
| Actions.ResolveForChild | lib/pacemaker/pcmk_sched_instances.c:959-966 | for a primitive child, stopped, running, promoted and demoted fold back to the task they complete, and every other task is kept |
| Actions.TaskOfName | include/crm/common/actions.h:37-70 | a name that is not one of the task names denotes no task |
| Actions.TaskNameRoundTrip | include/crm/common/actions.h:37-70 | reading back a task's name gives the task |
| Actions.FirstActionFound | lib/pacemaker/pcmk_sched_instances.c:992 | the lookup finds the first action with the task (and the node, if given), or none exactly when no action matches; a lookup for no task finds nothing |
| RoleMachine.DistanceDecreases | lib/pacemaker/pcmk_sched_primitive.c:33-123 | each transition the two tables select moves the resource strictly closer to its target role |
| RoleMachine.TransitionPath | lib/pacemaker/pcmk_sched_primitive.c:653-674 | the walk is a chain of table steps that never starts at the target, never uses an empty or error entry, and ends at the target, except that it ends Stopped for an unknown target and a started resource asked to be unpromoted stays started |
| RoleMachine.PathIsShort | lib/pacemaker/pcmk_sched_primitive.c:653-674 | no role walk schedules more than three transitions |
| RoleMachine.StoppedToPromoted | lib/pacemaker/pcmk_sched_primitive.c:33-123 | promoting a stopped resource starts it as unpromoted and then promotes it |
| RoleMachine.PromotedToStopped | lib/pacemaker/pcmk_sched_primitive.c:33-123 | stopping a promoted resource demotes it and then stops it |
| RoleMachine.TowardStopped | lib/pacemaker/pcmk_sched_primitive.c:33-123 | from any active role, the first step toward Stopped is a stop or a demote |
| RoleMachine.RestartPlan | lib/pacemaker/pcmk_sched_primitive.c:559-604 | the restart's steps down are exactly the table walk from the role to Stopped, run on the current node; unless the resource is blocked or its next role is lower, its steps up are exactly the walk from Stopped back to its role, run on the new node, and it ends where that walk ends, otherwise there are no steps up and it ends Stopped; steps down and starts are optional exactly when no stop is needed, a promotion exactly when neither a stop nor a promotion is needed |
| RoleMachine.BringDown | lib/pacemaker/pcmk_sched_primitive.c:569-581 | one scheduled step per step of the walk to Stopped, with the same transition, each a stop or demote on the current node, optional exactly when no stop is needed |
| RoleMachine.BringUp | lib/pacemaker/pcmk_sched_primitive.c:583-601 | one scheduled step per step of the walk from Stopped to the role, with the same transition, each a start or promote on the new node; a start is optional exactly when no stop is needed, a promotion exactly when neither a stop nor a promotion is needed |
| RoleMachine.UpwardSteps | lib/pacemaker/pcmk_sched_primitive.c:584-603 | the walk up from Stopped uses only start and promote, promotes only into Promoted, and reaches every known role |
| RoleMachine.DefaultNextRole | lib/pacemaker/pcmk_sched_primitive.c:614-627 | an unknown next role becomes Started when the resource is assigned and Stopped when it is not, and a known one is kept and reported as explicit |
| RoleMachine.DefaultNextRoleIdempotent | lib/pacemaker/pcmk_sched_primitive.c:614-627 | defaulting a defaulted next role changes nothing |
| RoleMachine.DefaultedWalkReachesTarget | lib/pacemaker/pcmk_sched_primitive.c:653-674 | after defaulting, the role walk from any role reaches the next role, except that a started resource asked to be unpromoted stays started |
| PrimitiveAssign.FirstIsBest | lib/pacemaker/pcmk_sched_primitive.c:183-187 | the first node of the sorted list has the highest weight |
| PrimitiveAssign.TieScan | lib/pacemaker/pcmk_sched_primitive.c:243-260 | the scan over equally weighted nodes picks the running node exactly when it ties with the best |
| PrimitiveAssign.ChooseNode | lib/pacemaker/pcmk_sched_primitive.c:165-281 | no node only for an empty table; otherwise a best-weighted node, the preferred node when it is accepted, and the current node when the tie-break applies and it ties with the best |
| PrimitiveAssign.AssignBestNode | lib/pacemaker/pcmk_sched_primitive.c:165-290 | an already assigned resource only reports its assignment; otherwise the chosen node has the best weight, and an accepted preference (or, without one, the node with most free capacity) wins |
| PrimitiveAssign.StaysOnTiedCurrentNode | lib/pacemaker/pcmk_sched_primitive.c:222-260 | a resource whose current node ties with the best stays where it is |
| PrimitiveAssign.ApplyThisWith | lib/pacemaker/pcmk_sched_primitive.c:299-335 | a colocation that needs a snapshot is undone exactly when it leaves no node available |
| PrimitiveAssign.SnapshotKeepsAvailability | lib/pacemaker/pcmk_sched_primitive.c:299-335 | if some node was available before such a colocation, some node is available after it |
| PrimitiveAssign.ColocationSchedule | lib/pacemaker/pcmk_sched_primitive.c:434-470 | every colocation is applied once; mandatory ones come before optional ones, mandatory "this with" ones before mandatory "with this" ones, and optional "this with" ones before optional "with this" ones |
| PrimitiveAssign.AssignResource | lib/pacemaker/pcmk_sched_primitive.c:287 | a node is assigned only if chosen; a chosen node is assigned whenever the assignment is forced, and otherwise exactly when it is allowed and available with a non-negative score |
| PrimitiveAssign.AdjustedNextRole | lib/pacemaker/pcmk_sched_primitive.c:475-489 | without quorum under the freeze policy, a next role above the current role is lowered to the current role; in every other case the next role is kept |
| PrimitiveAssign.PrimitiveAssignment | lib/pacemaker/pcmk_sched_primitive.c:390-546 | assigned and in-progress resources are left alone; otherwise the resource ends assigned with the table the colocations leave (banned everywhere when it is to stop); an unmanaged one stays on its current node in its current role; a managed one takes the adjusted next role, is not placed when everything is stopped, and otherwise gets the best node of its table if that node can be assigned, so it is never placed when stopping and only on an available allowed node |
| PrimitiveActions.ExpectedNodeUnique | lib/pacemaker/pcmk_sched_primitive.c:1213-1220 | at most one node is the expected node of a restarted multiply active resource |
| PrimitiveActions.StartResource | lib/pacemaker/pcmk_sched_primitive.c:1311-1339 | a runnable start becomes mandatory when asked so, and the start is a pseudo-action exactly on the expected node |
| PrimitiveActions.PromoteResource | lib/pacemaker/pcmk_sched_primitive.c:1349-1398 | with every start on the node runnable, a promote exists there afterwards (created only if missing); scheduling changes only its optional and pseudo flags, so it stays optional only if it was and the caller asked for that, and is a pseudo-action if it was or the node is the expected node; otherwise every promote there is unrunnable and nothing is added |
| PrimitiveActions.PromotionIgnoresOtherNodes | lib/pacemaker/pcmk_sched_primitive.c:1358-1366 | starts on other nodes do not block a promotion |
| InstanceAssign.BanUnavailable | lib/pacemaker/pcmk_sched_instances.c:84-100 | exactly the nodes that cannot run the instance get weight -INFINITY; the other entries and all counts are kept |
| InstanceAssign.UsableAfterBan | lib/pacemaker/pcmk_sched_instances.c:31-100 | a node still scored at zero or more after the ban can run the instance |
| InstanceAssign.AssignInstance | lib/pacemaker/pcmk_sched_instances.c:120-199 | assigned and in-progress instances are left alone, and a bad preference is refused; a final assignment succeeds exactly when the node-choice picks a node, a speculative one exactly when it picks the preferred node; any other pick is rolled back, leaving the instance unassigned, unlocated, with the banned table and uncounted; a success places the instance on an allowed node under the per-node limit and counts it |
| InstanceAssign.AppendParentColocation | lib/pacemaker/pcmk_sched_instances.c:201-227 | the instance's own colocations are kept in front, followed by exactly the collective's colocations the filter keeps |
| InstanceAssign.InheritAll | lib/pacemaker/pcmk_sched_instances.c:206-213 | with every colocation wanted, all of the collective's "this with" colocations are inherited, in order |
| InstanceAssign.ResetCounts | lib/pacemaker/pcmk_sched_instances.c:237-252 | every count is zeroed and weights are kept; the result counts available nodes and is zero exactly when none is available |
| InstanceAssign.AllColoc | lib/pacemaker/pcmk_sched_instances.c:318 | for a non-negative limit, all colocations are inherited exactly when there are more available nodes than instances allowed; a negative limit (converted to unsigned) never inherits them |
| InstanceAssign.OptimalPerNode | lib/pacemaker/pcmk_sched_instances.c:326-331 | the optimal number per node is at least one, and otherwise the limit divided by the available nodes, never exceeding the limit in total |
| InstanceAssign.PreferredNode | lib/pacemaker/pcmk_sched_instances.c:264-297 | the current node is preferred exactly when the instance is unassigned, not failed, runs on an available node and that node is below the optimal count |
| InstanceAssign.StickyStep | lib/pacemaker/pcmk_sched_instances.c:342-353 | the instance inherits the collective's colocations and is placed exactly when it has a preferred node that its node-choice accepts, on that node, under the optimal and per-node counts; an unassigned instance ends located exactly where it was counted |
| InstanceAssign.StickinessPass | lib/pacemaker/pcmk_sched_instances.c:340-354 | each instance the first pass reaches is placed exactly when, with the collective's colocations added and the counts so far, it has a preferred current node that its node-choice accepts; it is placed only there, and ends located exactly where it was counted; per-node counts stay under the optimal and per-node limits, the total limit is never exceeded, and the pass stops early only when the limit is reached |
| InstanceAssign.FinalStep | lib/pacemaker/pcmk_sched_instances.c:359-390 | an assigned instance is skipped; at the total limit an unassigned one is banned everywhere; below it an unassigned instance not already being assigned is placed exactly where its node-choice, with no preference, picks, and counted there |
| InstanceAssign.FinalPass | lib/pacemaker/pcmk_sched_instances.c:359-390 | exactly the unassigned instances met at the total limit are banned; every other unassigned instance not already being assigned is placed exactly where its node-choice picks on the counts so far; counts stay under the per-node limit, and the pass never goes over the total limit |
| InstanceAssign.AssignInstances | lib/pacemaker/pcmk_sched_instances.c:308-395 | the first pass visits the instances in order, stopping early only at the total limit, and keeps each visited instance on its current node exactly when its node-choice accepts that node; the second pass places every instance it neither skips nor bans exactly where its node-choice picks; at most the total limit is placed, at most the per-node limit per node, and each node's count is the number of instances placed there; every unassigned instance ends located exactly where it was counted; a placed instance was unassigned and inherited the collective's colocations; assigned instances keep their location; banned instances are unplaced with -INFINITY everywhere; nobody is banned below the limit; and every instance left unassigned was banned or in progress |
| InstanceActions.ScanFindsAny | lib/pacemaker/pcmk_sched_instances.c:449-486 | the early-exit scan finds a starting (stopping) action exactly when one exists |
| InstanceActions.OwnState | lib/pacemaker/pcmk_sched_instances.c:442-492 | a primitive is starting (stopping) exactly when it has a mandatory runnable start (a mandatory stop that is runnable or a pseudo-action), and restarting when both hold |
| InstanceActions.CheckMatchesLeaves | lib/pacemaker/pcmk_sched_instances.c:421-493 | the recursive state check of an instance sets a flag exactly when some primitive below it has that property |
| InstanceActions.CheckMembersMatchLeaves | lib/pacemaker/pcmk_sched_instances.c:433-439 | folding the check over a list of instances sets a flag exactly when some primitive below them has that property |
| InstanceActions.RestartNeedsOneInstance | lib/pacemaker/pcmk_sched_instances.c:488-492 | one instance starting and another stopping do not make the collective restart |
| InstanceActions.CreateInstanceActions | lib/pacemaker/pcmk_sched_instances.c:504-566 | all four are pseudo-actions; start and started are optional exactly when nothing starts, stop and stopped exactly when nothing stops; started is runnable exactly when something is active or starting; stop may migrate exactly when no instance restarts |
| InstanceActions.SeparateStartAndStopMigrate | lib/pacemaker/pcmk_sched_instances.c:546-555 | a collective whose starts and stops are in different instances keeps stop migratable |
| InstanceActions.NotifiedTaskNameRoundTrip | lib/pacemaker/pcmk_sched_instances.c:941-963 | the notified task is the text between the last two underscores of the key |
| InstanceActions.FewUnderscoresNoTask | lib/pacemaker/pcmk_sched_instances.c:945-963 | a key with at most one underscore after its first character yields no task |
| InstanceActions.CloneChildAction | lib/pacemaker/pcmk_sched_instances.c:933-969 | a non-notification task is resolved for the child directly, and a notification key without the expected underscores means no task |
| InstanceActions.CloneChildActionOfNotification | lib/pacemaker/pcmk_sched_instances.c:933-969 | a notification about a task resolves to that task as the child sees it |
| InstanceActions.ScanChildren | lib/pacemaker/pcmk_sched_instances.c:989-1009 | the scan reports every matching child action optional exactly when all are, and some runnable exactly when one is |
| InstanceActions.SummaryActionFlags | lib/pacemaker/pcmk_sched_instances.c:977-1019 | the summary is optional exactly when every matching child action is, and runnable exactly when some matching child action is; the action itself loses its optional flag with the summary, and its runnable flag only when no node is given |
| Interleave.IsChildCompatible | lib/pacemaker/pcmk_sched_instances.c:575-604 | an instance is compatible with a node exactly when it is unblocked, located there, and in the filtered role |
| Interleave.CompatibleWithOneNode | lib/pacemaker/pcmk_sched_instances.c:575-604 | an instance is compatible with at most one node |
| Interleave.FindCompatibleChildByNode | lib/pacemaker/pcmk_sched_instances.c:606-639 | the result is the first compatible instance on the node, or none exactly when there is no node or no compatible instance |
| Interleave.FirstPairing | lib/pacemaker/pcmk_sched_instances.c:656-668 | the result pairs the first allowed node that has a compatible instance (no earlier node has one) with the first compatible instance there, or is none exactly when no allowed node has one |
| Interleave.FindCompatibleChild | lib/pacemaker/pcmk_sched_instances.c:641-673 | a located instance is paired with the first compatible instance on its own node; an unlocated one with the first compatible instance on the first of its sorted allowed nodes that has one |
| Interleave.PeersShareNode | lib/pacemaker/pcmk_sched_instances.c:651-654 | a located instance's peer is located on the same node |
| Interleave.CanInterleave | lib/pacemaker/pcmk_sched_instances.c:817-848 | interleaving needs two different clones or bundles, and then follows the deciding resource's interleave setting |
| Interleave.StopOrDemoteKey | lib/pacemaker/pcmk_sched_instances.c:835-840 | an operation key ends in "_stop_0" or "_demote_0" exactly for the stop and demote tasks |
| Interleave.InterleaveChild | lib/pacemaker/pcmk_sched_instances.c:675-815 | an instance without a peer is ignored exactly when the ordering is about the current state, inhibited exactly when it is otherwise mandatory, and left alone otherwise; with a peer, the peer's first action for the resolved task and the instance's own first action for its task are paired exactly when both exist, and reported missing otherwise |
| Interleave.FirstMatchHasTask | lib/pacemaker/pcmk_sched_instances.c:734-752 | the action found for a pairing performs the requested task on the requested node |
| Interleave.ChildTargets | lib/pacemaker/pcmk_sched_instances.c:895-904 | exactly the children's first matching runnable actions are targeted |
| Interleave.DirectPairs | lib/pacemaker/pcmk_sched_instances.c:890-913 | the first pair orders the action itself; every other pair orders `first` before some instance's runnable first match of the task, and every such match is ordered |
| Interleave.MultiUpdateActions | lib/pacemaker/pcmk_sched_instances.c:872-931 | interleaving happens exactly when it is allowed, with one step per instance; otherwise the ordering is applied to the action itself and to exactly the runnable first matching actions of the instances |

## Left out

- Logging, tracing and the notice about an instance running on a node it is no longer allowed on have no effect on the result and are not modelled.
- The node-choice of an instance is a parameter (`InstanceAssign.Assigner`); the model relies on it only as `InstanceAssign.SoundAssigner` states. `pcmk__assign_resource` is not part of this model: `PrimitiveAssign.AssignResource` models its decision from its documented behaviour (a forced node is taken as is, an unforced one only if allowed and available), and its bookkeeping is not modelled.
- InstanceAssign.AssignInstances: the per-node bound relies on the node-choice only picking nodes with a non-negative weight. A forced assignment (an unmanaged instance stuck on its node) can break that in the real scheduler.
- `resource_location(instance, NULL, -INFINITY, ...)` is modelled as setting every allowed node of the instance to -INFINITY. The function itself is not part of this model.
- The rollback in `assign_instance` restores the allowed-node table as it was after the ban. A copy taken before the ban is indistinguishable, because the ban is repeated on every call.
- Colocation scoring, the resources' own colocation lists, the utilisation-based "most free" node and the node sort are parameters. Their code is not part of this model.
- `pcmk__primitive_assign` when the resource is a remote connection, the parent's assignment, `stop_if_fail` and the utilisation checks are not modelled; they concern cluster layers outside the modelled files.
- `start_resource` also orders the start after the node's unfencing (`pcmk__order_vs_unfence`, lib/pacemaker/pcmk_sched_primitive.c:1323). That function is not part of this model, and `PrimitiveActions.StartResource` states only the start's own flags.
- The creation of a primitive's own actions, the stop and demote transition functions, `assert_role_error` (it only aborts) and cleanup scheduling are not modelled.
- PrimitiveActions.PromoteResource: the promote action created when none exists is a parameter, since action creation is not part of this model.
- Notification pseudo-operations of a collective (`pe__clone_notif_pseudo_ops`) and the orderings between them are not modelled.
- Interleave.MultiUpdateActions: states which pairs of actions are ordered. It does not state the flag updates each ordering performs or the "changed" result, because `update_ordered_actions`, `order_actions` and `pcmk__update_action_for_orderings` are not part of this model.
- Interleave.InterleaveChild: an inhibited instance is reported as such. The effect of `pcmk__assign_resource(then_child, NULL, true)` on it is left to that function, which is not part of this model.
- Containerised resources of bundles (`pcmk__get_rsc_in_container`) are not modelled in pairing; only the instances themselves are paired.
- `text2task`, `task2text`, `get_complex_task`, `find_first_action` and `pe__new_rsc_pseudo_action` are not part of this model. They are modelled from how the modelled files use them: exact task names, first match in list order, and a pseudo-action with the given optional and runnable flags.
- A resource's current role, location and blocked state are fields of `Interleave.Peer` rather than computed through the resource's method table.

=== FILE: actions.dfy ===
/**
 * The scheduler's action vocabulary: the task enumeration with its numeric
 * layout, the task names, the folding of "completed" tasks onto their atomic
 * counterparts, action flags and the first-match lookup over action lists.
 */
module Actions {
  import opened Types

  /** The tasks an action can perform, in the order of the C enumeration. */
  datatype Task =
    | Unspecified
    | Monitor
    | Stop | Stopped
    | Start | Started
    | Notify | Notified
    | Promote | Promoted
    | Demote | Demoted
    | Shutdown
    | Fence

  /** The value the C enumeration gives each task. */
  function Ordinal(t: Task): nat {
    match t
    case Unspecified => 0
    case Monitor => 1
    case Stop => 2
    case Stopped => 3
    case Start => 4
    case Started => 5
    case Notify => 6
    case Notified => 7
    case Promote => 8
    case Promoted => 9
    case Demote => 10
    case Demoted => 11
    case Shutdown => 12
    case Fence => 13
  }

  /** The task with a given enumeration value, if there is one. */
  function OfOrdinal(n: nat): (t: Option<Task>)
    ensures t.Some? <==> n < 14
    ensures t.Some? ==> Ordinal(t.value) == n
  {
    if n == 0 then Some(Unspecified)
    else if n == 1 then Some(Monitor)
    else if n == 2 then Some(Stop)
    else if n == 3 then Some(Task.Stopped)
    else if n == 4 then Some(Start)
    else if n == 5 then Some(Task.Started)
    else if n == 6 then Some(Notify)
    else if n == 7 then Some(Notified)
    else if n == 8 then Some(Promote)
    else if n == 9 then Some(Task.Promoted)
    else if n == 10 then Some(Demote)
    else if n == 11 then Some(Demoted)
    else if n == 12 then Some(Shutdown)
    else if n == 13 then Some(Fence)
    else None
  }

  /** Distinct tasks have distinct enumeration values. */
  lemma OrdinalInjective(a: Task, b: Task)
    ensures Ordinal(a) == Ordinal(b) ==> a == b
  {
  }

  /** The "completed" task that follows a regular task, if it has one. */
  function Completion(t: Task): Option<Task> {
    match t
    case Stop => Some(Task.Stopped)
    case Start => Some(Task.Started)
    case Notify => Some(Notified)
    case Promote => Some(Task.Promoted)
    case Demote => Some(Demoted)
    case _ => None
  }

  /** The layout invariant of the enumeration: every completed task is the
      regular task plus one. */
  lemma CompletionIsSuccessor(t: Task)
    requires Completion(t).Some?
    ensures Ordinal(Completion(t).value) == Ordinal(t) + 1
  {
  }

  /** Completed tasks that a primitive child folds back onto the atomic task
      (notified is deliberately not among them). */
  predicate FoldsForPrimitive(t: Task) {
    t == Task.Stopped || t == Task.Started || t == Task.Promoted || t == Demoted
  }

  /**
   * The task a collective's task means for one of its children: for a
   * primitive child a completed task is folded back by decrementing its
   * enumeration value; otherwise the task is kept.
   */
  function ResolveForChild(t: Task, childIsPrimitive: bool): (r: Task)
    ensures !(childIsPrimitive && FoldsForPrimitive(t)) ==> r == t
    ensures childIsPrimitive && FoldsForPrimitive(t) ==> Completion(r) == Some(t)
  {
    if childIsPrimitive && FoldsForPrimitive(t) then
      OfOrdinal(Ordinal(t) - 1).value
    else
      t
  }

  /** The name of each task as it appears in action keys. */
  function TaskName(t: Task): string {
    match t
    case Unspecified => "no_action"
    case Monitor => "monitor"
    case Stop => "stop"
    case Stopped => "stopped"
    case Start => "start"
    case Started => "running"
    case Notify => "notify"
    case Notified => "notified"
    case Promote => "promote"
    case Promoted => "promoted"
    case Demote => "demote"
    case Demoted => "demoted"
    case Shutdown => "do_shutdown"
    case Fence => "stonith"
  }

  /** The task a name denotes; unrecognised names denote no task. */
  function TaskOfName(s: string): (t: Task)
    ensures s !in NamedTaskNames() ==> t == Unspecified
  {
    if s == "stop" then Stop
    else if s == "stopped" then Task.Stopped
    else if s == "start" then Start
    else if s == "running" then Task.Started
    else if s == "do_shutdown" then Shutdown
    else if s == "stonith" then Fence
    else if s == "monitor" then Monitor
    else if s == "notify" then Notify
    else if s == "notified" then Notified
    else if s == "promote" then Promote
    else if s == "demote" then Demote
    else if s == "promoted" then Task.Promoted
    else if s == "demoted" then Demoted
    else Unspecified
  }

  /** The names that denote a task other than Unspecified. */
  function NamedTaskNames(): set<string> {
    {"stop", "stopped", "start", "running", "do_shutdown", "stonith", "monitor",
     "notify", "notified", "promote", "demote", "promoted", "demoted"}
  }

  /** Looking up a task's own name gives the task back. */
  lemma TaskNameRoundTrip(t: Task)
    ensures TaskOfName(TaskName(t)) == t
  {
  }

  /** The flags of an action that ordering propagation reads and clears. */
  datatype ActionFlags = ActionFlags(optional: bool, runnable: bool, pseudo: bool,
                                     migrateRunnable: bool)

  /**
   * A scheduled action: identity, key (resource, task and interval encoded as
   * text), task, the node it runs on (none for cluster-wide pseudo-actions)
   * and its flags.
   */
  datatype Action = Action(id: nat, uuid: string, task: Task, node: Option<NodeId>,
                           flags: ActionFlags)

  /**
   * Whether an action performs `task`, on `node` when a node is given. The
   * lookup compares task names, and looking up no task compares with
   * "no_action", which names no scheduled action: it matches nothing, even
   * though actions whose names lie outside the enumeration are `Unspecified`
   * here.
   */
  predicate MatchesLookup(a: Action, task: Task, node: Option<NodeId>) {
    task != Unspecified && a.task == task && (node.None? || a.node == node)
  }

  /** The first action of a list that performs `task` (on `node`, if given). */
  function FindFirstAction(actions: seq<Action>, task: Task, node: Option<NodeId>): Option<Action> {
    if |actions| == 0 then None
    else if MatchesLookup(actions[0], task, node) then Some(actions[0])
    else FindFirstAction(actions[1..], task, node)
  }

  /** The lookup finds nothing exactly when no action matches, and otherwise
      the first action that matches. */
  lemma {:induction false} FirstActionFound(actions: seq<Action>, task: Task, node: Option<NodeId>)
    ensures var r := FindFirstAction(actions, task, node);
            && (r.None? <==> forall i :: 0 <= i < |actions| ==> !MatchesLookup(actions[i], task, node))
            && (r.Some? ==> exists i :: 0 <= i < |actions| && actions[i] == r.value
                                        && MatchesLookup(actions[i], task, node)
                                        && forall j :: 0 <= j < i ==> !MatchesLookup(actions[j], task, node))
            && (task == Unspecified ==> r.None?)
  {
    if |actions| > 0 && !MatchesLookup(actions[0], task, node) {
      var rest := FindFirstAction(actions[1..], task, node);
      FirstActionFound(actions[1..], task, node);
      assert forall i :: 1 <= i < |actions| ==> actions[i] == actions[1..][i - 1];
      if rest.Some? {
        var k :| 0 <= k < |actions[1..]| && actions[1..][k] == rest.value
                 && MatchesLookup(actions[1..][k], task, node)
                 && forall j :: 0 <= j < k ==> !MatchesLookup(actions[1..][j], task, node);
        assert actions[k + 1] == rest.value;
        forall j | 0 <= j < k + 1 ensures !MatchesLookup(actions[j], task, node) {
          if j > 0 { assert actions[j] == actions[1..][j - 1]; }
        }
      }
    }
  }
}

=== FILE: instance_actions.dfy ===
/**
 * The collective's view of its instances' actions: the fold that detects
 * whether any instance is active, starting, stopping or restarting, the flags
 * of the collective's own start/started/stop/stopped pseudo-actions derived
 * from it, the task a collective action means for a child, and the summary of
 * the children's flags for one of the collective's actions.
 */
module InstanceActions {
  import opened Types
  import opened Actions

  /** A primitive instance as the state fold sees it. */
  datatype Leaf = Leaf(running: bool, actions: seq<Action>)

  /** A clone instance or bundle replica: a primitive, or a collective (a
      cloned group) whose members are checked in its place. */
  datatype Member =
    | Primitive(leaf: Leaf)
    | Group(members: seq<Member>)

  /** The four bits of the instance-state fold. */
  datatype InstanceState = InstanceState(starting: bool, stopping: bool, restarting: bool,
                                         active: bool)

  const NoState := InstanceState(false, false, false, false)

  /** Every condition has been detected. */
  predicate AllSet(s: InstanceState) {
    s.starting && s.stopping && s.restarting && s.active
  }

  /** Bitwise union of two states. */
  function Join(a: InstanceState, b: InstanceState): InstanceState {
    InstanceState(a.starting || b.starting, a.stopping || b.stopping,
                  a.restarting || b.restarting, a.active || b.active)
  }

  /** A start that will happen: mandatory and runnable. */
  predicate IsStarting(a: Action) {
    a.task == Start && !a.flags.optional && a.flags.runnable
  }

  /** A stop that will happen: mandatory, and runnable or implied by fencing
      (a pseudo-action). */
  predicate IsStopping(a: Action) {
    a.task == Stop && !a.flags.optional && (a.flags.pseudo || a.flags.runnable)
  }

  /** Scan an instance's actions for a starting and a stopping action, giving
      up as soon as both have been seen. */
  function ScanActions(actions: seq<Action>, starting: bool, stopping: bool): (bool, bool)
    decreases |actions|
  {
    if |actions| == 0 || (starting && stopping) then (starting, stopping)
    else ScanActions(actions[1..], starting || IsStarting(actions[0]), stopping || IsStopping(actions[0]))
  }

  /** The early exit of the scan loses nothing: it finds a starting (stopping)
      action exactly when one exists. */
  lemma {:induction false} ScanFindsAny(actions: seq<Action>, starting: bool, stopping: bool)
    ensures ScanActions(actions, starting, stopping).0
            <==> starting || exists i :: 0 <= i < |actions| && IsStarting(actions[i])
    ensures ScanActions(actions, starting, stopping).1
            <==> stopping || exists i :: 0 <= i < |actions| && IsStopping(actions[i])
    decreases |actions|
  {
    if |actions| == 0 || (starting && stopping) {
    } else {
      var rest := actions[1..];
      ScanFindsAny(rest, starting || IsStarting(actions[0]), stopping || IsStopping(actions[0]));
      assert forall i :: 1 <= i < |actions| ==> actions[i] == rest[i - 1];
      if exists i :: 0 <= i < |actions| && IsStarting(actions[i]) {
        var i :| 0 <= i < |actions| && IsStarting(actions[i]);
        if i > 0 { assert IsStarting(rest[i - 1]); }
      }
      if exists i :: 0 <= i < |actions| && IsStopping(actions[i]) {
        var i :| 0 <= i < |actions| && IsStopping(actions[i]);
        if i > 0 { assert IsStopping(rest[i - 1]); }
      }
    }
  }

  /**
   * The state of one primitive instance: active if it is running anywhere,
   * starting or stopping if one of its actions is, and restarting only if it
   * is itself both starting and stopping.
   */
  function OwnState(leaf: Leaf): (r: InstanceState)
    ensures r.active == leaf.running
    ensures r.starting <==> exists i :: 0 <= i < |leaf.actions| && IsStarting(leaf.actions[i])
    ensures r.stopping <==> exists i :: 0 <= i < |leaf.actions| && IsStopping(leaf.actions[i])
    ensures r.restarting <==> r.starting && r.stopping
  {
    ScanFindsAny(leaf.actions, false, false);
    var scan := ScanActions(leaf.actions, false, false);
    InstanceState(scan.0, scan.1, scan.0 && scan.1, leaf.running)
  }

  /** Add an instance's state to the fold, stopping early once every
      condition has been detected. */
  function CheckInstanceState(m: Member, state: InstanceState): InstanceState
    decreases m
  {
    if AllSet(state) then state
    else
      match m
      case Primitive(leaf) => Join(state, OwnState(leaf))
      case Group(members) => CheckMembers(members, state)
  }

  /** Fold the state of a list of instances (or a group's members). */
  function CheckMembers(ms: seq<Member>, state: InstanceState): InstanceState
    decreases ms
  {
    if |ms| == 0 || AllSet(state) then state
    else CheckMembers(ms[1..], CheckInstanceState(ms[0], state))
  }

  /** The primitive instances of a member, groups flattened. */
  function Leaves(m: Member): seq<Leaf>
    decreases m
  {
    match m
    case Primitive(leaf) => [leaf]
    case Group(members) => LeavesAll(members)
  }

  function LeavesAll(ms: seq<Member>): seq<Leaf>
    decreases ms
  {
    if |ms| == 0 then [] else Leaves(ms[0]) + LeavesAll(ms[1..])
  }

  /** Whether some primitive instance of a list has property `p`. */
  predicate AnyLeaf(ls: seq<Leaf>, p: Leaf -> bool) {
    exists i :: 0 <= i < |ls| && p(ls[i])
  }

  predicate LeafStarting(l: Leaf) { OwnState(l).starting }
  predicate LeafStopping(l: Leaf) { OwnState(l).stopping }
  predicate LeafRestarting(l: Leaf) { OwnState(l).restarting }
  predicate LeafRunning(l: Leaf) { l.running }

  /** Reference definition of the fold: a bit is set exactly when it is set
      for some primitive instance on its own. */
  function StateOfLeaves(ls: seq<Leaf>): InstanceState {
    InstanceState(AnyLeaf(ls, LeafStarting), AnyLeaf(ls, LeafStopping),
                  AnyLeaf(ls, LeafRestarting), AnyLeaf(ls, LeafRunning))
  }

  lemma AnyLeafConcat(a: seq<Leaf>, b: seq<Leaf>, p: Leaf -> bool)
    ensures AnyLeaf(a + b, p) <==> AnyLeaf(a, p) || AnyLeaf(b, p)
  {
    var ab := a + b;
    if AnyLeaf(ab, p) {
      var i :| 0 <= i < |ab| && p(ab[i]);
      if i >= |a| { assert b[i - |a|] == ab[i]; }
    }
    if AnyLeaf(a, p) {
      var i :| 0 <= i < |a| && p(a[i]);
      assert ab[i] == a[i];
    }
    if AnyLeaf(b, p) {
      var i :| 0 <= i < |b| && p(b[i]);
      assert ab[|a| + i] == b[i];
    }
  }

  lemma StateOfConcat(a: seq<Leaf>, b: seq<Leaf>)
    ensures StateOfLeaves(a + b) == Join(StateOfLeaves(a), StateOfLeaves(b))
  {
    AnyLeafConcat(a, b, LeafStarting);
    AnyLeafConcat(a, b, LeafStopping);
    AnyLeafConcat(a, b, LeafRestarting);
    AnyLeafConcat(a, b, LeafRunning);
  }

  /**
   * The fold with its early exits computes the reference state: the incoming
   * state joined with the state of every primitive instance.
   */
  lemma {:induction false} CheckMatchesLeaves(m: Member, state: InstanceState)
    ensures CheckInstanceState(m, state) == Join(state, StateOfLeaves(Leaves(m)))
    decreases m
  {
    if AllSet(state) {
    } else {
      match m
      case Primitive(leaf) =>
        assert Leaves(m) == [leaf];
        assert OwnState([leaf][0]) == OwnState(leaf);
      case Group(members) =>
        CheckMembersMatchLeaves(members, state);
    }
  }

  lemma {:induction false} CheckMembersMatchLeaves(ms: seq<Member>, state: InstanceState)
    ensures CheckMembers(ms, state) == Join(state, StateOfLeaves(LeavesAll(ms)))
    decreases ms
  {
    if |ms| == 0 {
    } else if AllSet(state) {
    } else {
      CheckMatchesLeaves(ms[0], state);
      CheckMembersMatchLeaves(ms[1..], CheckInstanceState(ms[0], state));
      StateOfConcat(Leaves(ms[0]), LeavesAll(ms[1..]));
    }
  }

  /** Restarting means one instance is both starting and stopping; one
      instance starting while another stops is not a restart. */
  lemma RestartNeedsOneInstance(starter: Leaf, stopper: Leaf)
    requires OwnState(starter).starting && !OwnState(starter).stopping
    requires OwnState(stopper).stopping && !OwnState(stopper).starting
    ensures var s := CheckMembers([Primitive(starter), Primitive(stopper)], NoState);
            s.starting && s.stopping && !s.restarting
  {
    CheckMembersMatchLeaves([Primitive(starter), Primitive(stopper)], NoState);
    var ls := LeavesAll([Primitive(starter), Primitive(stopper)]);
    assert LeavesAll([Primitive(stopper)]) == [stopper];
    assert ls == [starter, stopper];
    assert LeafStarting(ls[0]) && LeafStopping(ls[1]);
    assert !LeafRestarting(ls[0]) && !LeafRestarting(ls[1]);
  }

  /** One of the collective's own pseudo-actions. */
  datatype PseudoAction = PseudoAction(task: Task, flags: ActionFlags, priority: int)

  /** A new pseudo-action of the collective: optional and runnable as asked. */
  function NewPseudoAction(task: Task, optional: bool, runnable: bool): PseudoAction {
    PseudoAction(task, ActionFlags(optional, runnable, true, false), 0)
  }

  datatype CollectiveActions = CollectiveActions(start: PseudoAction, started: PseudoAction,
                                                 stop: PseudoAction, stopped: PseudoAction)

  /**
   * The collective's start, started, stop and stopped pseudo-actions, derived
   * from the state of its instances (whose own actions have already been
   * created).
   */
  function CreateInstanceActions(instances: seq<Member>): (r: CollectiveActions)
    ensures var s := StateOfLeaves(LeavesAll(instances));
            && r.start.task == Start && r.started.task == Task.Started
            && r.stop.task == Stop && r.stopped.task == Task.Stopped
            && (r.start.flags.optional <==> !s.starting)
            && (r.started.flags.optional <==> !s.starting)
            && (r.stop.flags.optional <==> !s.stopping)
            && (r.stopped.flags.optional <==> !s.stopping)
            && r.start.flags.runnable && r.stop.flags.runnable && r.stopped.flags.runnable
            && (r.started.flags.runnable <==> s.active || s.starting)
            && (r.stop.flags.migrateRunnable <==> !s.restarting)
            && !r.start.flags.migrateRunnable && !r.started.flags.migrateRunnable
            && !r.stopped.flags.migrateRunnable
            && r.started.priority == Infinity && r.stopped.priority == Infinity
            && r.start.flags.pseudo && r.started.flags.pseudo
            && r.stop.flags.pseudo && r.stopped.flags.pseudo
  {
    CheckMembersMatchLeaves(instances, NoState);
    var state := CheckMembers(instances, NoState);
    var start := NewPseudoAction(Start, !state.starting, true);
    var started := NewPseudoAction(Task.Started, !state.starting, false);
    var started := started.(priority := Infinity,
                            flags := started.flags.(runnable := state.active || state.starting));
    var stop := NewPseudoAction(Stop, !state.stopping, true);
    var stop := if state.restarting then stop else stop.(flags := stop.flags.(migrateRunnable := true));
    var stopped := NewPseudoAction(Task.Stopped, !state.stopping, true).(priority := Infinity);
    CollectiveActions(start, started, stop, stopped)
  }

  /** A collective that merely has one instance starting and another
      stopping still lets its stop be used for a migration. */
  lemma SeparateStartAndStopMigrate(starter: Leaf, stopper: Leaf)
    requires OwnState(starter).starting && !OwnState(starter).stopping
    requires OwnState(stopper).stopping && !OwnState(stopper).starting
    ensures var r := CreateInstanceActions([Primitive(starter), Primitive(stopper)]);
            !r.start.flags.optional && !r.stop.flags.optional && r.stop.flags.migrateRunnable
  {
    RestartNeedsOneInstance(starter, stopper);
    CheckMembersMatchLeaves([Primitive(starter), Primitive(stopper)], NoState);
  }

  /**
   * The key of a notification names the action notified about between its
   * last two underscores. Scan `key` from position `i` down, remembering the
   * last underscore seen in `stop`; position 0 is never examined.
   */
  function ScanUnderscores(key: string, i: nat, stop: Option<nat>): (r: Option<string>)
    requires i <= |key|
    requires stop.Some? ==> i < stop.value <= |key|
    decreases i
  {
    if i == 0 then None
    else if i < |key| && key[i] == '_' then
      if stop.None? then ScanUnderscores(key, i - 1, Some(i))
      else Some(key[i + 1..stop.value])
    else ScanUnderscores(key, i - 1, stop)
  }

  /** The task name embedded in a notification key, if it has one. */
  function NotifiedTaskName(key: string): Option<string> {
    ScanUnderscores(key, |key|, None)
  }

  /** Positions without underscores are skipped by the scan. */
  lemma {:induction false} ScanSkips(key: string, i: nat, lo: nat, stop: Option<nat>)
    requires lo <= i <= |key|
    requires stop.Some? ==> i < stop.value <= |key|
    requires forall j :: lo < j <= i && j < |key| ==> key[j] != '_'
    ensures ScanUnderscores(key, i, stop) == ScanUnderscores(key, lo, stop)
    decreases i
  {
    if i > lo {
      ScanSkips(key, i - 1, lo, stop);
    }
  }

  /** A notification key built from a non-empty prefix, a task name and a
      suffix, neither of the last two containing an underscore, gives the
      task name back. */
  lemma NotifiedTaskNameRoundTrip(prefix: string, name: string, suffix: string)
    requires |prefix| > 0
    requires '_' !in name && '_' !in suffix
    ensures NotifiedTaskName(prefix + "_" + name + "_" + suffix) == Some(name)
  {
    var key := prefix + "_" + name + "_" + suffix;
    var a := |prefix|;
    var b := |prefix| + 1 + |name|;
    assert key[a] == '_' && key[b] == '_';
    assert forall j :: b < j < |key| ==> key[j] == suffix[j - b - 1];
    assert forall j :: a < j < b ==> key[j] == name[j - a - 1];
    ScanSkips(key, |key|, b, None);
    ScanSkips(key, b - 1, a, Some(b));
    assert key[a + 1..b] == name;
  }

  /** A key with at most one underscore after its first character names no
      task: the scan needs two. */
  lemma FewUnderscoresNoTask(key: string)
    requires forall j, k :: 0 < j < k < |key| && key[j] == '_' ==> key[k] != '_'
    ensures NotifiedTaskName(key) == None
  {
    if a :| 0 < a < |key| && key[a] == '_' {
      ScanSkips(key, |key|, a, None);
      ScanSkips(key, a - 1, 0, Some(a));
    } else {
      ScanSkips(key, |key|, 0, None);
    }
  }

  /**
   * The task a collective's action means for its children: for notify and
   * notified actions, the task being notified about; otherwise the action's
   * own task. A completed task is folded onto its atomic task when the
   * collective's first child is a primitive.
   */
  function CloneChildAction(a: Action, firstChildIsPrimitive: bool): (r: Task)
    ensures a.task != Notify && a.task != Notified ==>
              r == ResolveForChild(a.task, firstChildIsPrimitive)
    ensures (a.task == Notify || a.task == Notified) && NotifiedTaskName(a.uuid).None? ==>
              r == Unspecified
  {
    if a.task == Notify || a.task == Notified then
      match NotifiedTaskName(a.uuid)
      case None => Unspecified
      case Some(name) => ResolveForChild(TaskOfName(name), firstChildIsPrimitive)
    else
      ResolveForChild(TaskOfName(TaskName(a.task)), firstChildIsPrimitive)
  }

  /** For a notification about a task with an underscore-free name, the
      child task is the task notified about, folded as for any action. */
  lemma CloneChildActionOfNotification(a: Action, prefix: string, t: Task, suffix: string,
                                       firstChildIsPrimitive: bool)
    requires a.task == Notify || a.task == Notified
    requires a.uuid == prefix + "_" + TaskName(t) + "_" + suffix
    requires |prefix| > 0 && '_' !in suffix
    requires t != Unspecified && t != Shutdown
    ensures CloneChildAction(a, firstChildIsPrimitive) == ResolveForChild(t, firstChildIsPrimitive)
  {
    NotifiedTaskNameRoundTrip(prefix, TaskName(t), suffix);
    TaskNameRoundTrip(t);
  }

  /** A child of the collective as the flag summary sees it. */
  datatype SummaryChild = SummaryChild(hasChildren: bool, actions: seq<Action>)

  /** The child's action for `task`: on `node` for a child without children
      of its own, anywhere otherwise. */
  function ChildAction(c: SummaryChild, task: Task, node: Option<NodeId>): Option<Action> {
    FindFirstAction(c.actions, task, if c.hasChildren then None else node)
  }

  /** The child has no action for the task, or its action is optional. */
  predicate ChildOptional(c: SummaryChild, task: Task, node: Option<NodeId>,
                          actionFlags: (Action, Option<NodeId>) -> ActionFlags) {
    ChildAction(c, task, node).Some? ==> actionFlags(ChildAction(c, task, node).value, node).optional
  }

  /** The child has an action for the task, and it is runnable. */
  predicate ChildRunnable(c: SummaryChild, task: Task, node: Option<NodeId>,
                          actionFlags: (Action, Option<NodeId>) -> ActionFlags) {
    ChildAction(c, task, node).Some? && actionFlags(ChildAction(c, task, node).value, node).runnable
  }

  /** Scan the children: whether every matching child action is optional,
      and whether some matching child action is runnable. */
  method ScanChildren(children: seq<SummaryChild>, task: Task, node: Option<NodeId>,
                      actionFlags: (Action, Option<NodeId>) -> ActionFlags)
    returns (allOptional: bool, anyRunnable: bool)
    ensures allOptional <==> forall i :: 0 <= i < |children| ==> ChildOptional(children[i], task, node, actionFlags)
    ensures anyRunnable <==> exists i :: 0 <= i < |children| && ChildRunnable(children[i], task, node, actionFlags)
  {
    allOptional, anyRunnable := true, false;
    ghost var found := 0;
    var i := 0;
    while i < |children|
      invariant i <= |children|
      invariant allOptional <==> forall j :: 0 <= j < i ==> ChildOptional(children[j], task, node, actionFlags)
      invariant anyRunnable ==> found < i && ChildRunnable(children[found], task, node, actionFlags)
      invariant !anyRunnable ==> forall j :: 0 <= j < i ==> !ChildRunnable(children[j], task, node, actionFlags)
    {
      var childAction := ChildAction(children[i], task, node);
      if childAction.Some? {
        var childFlags := actionFlags(childAction.value, node);
        allOptional := allOptional && childFlags.optional;
        if !anyRunnable && childFlags.runnable {
          anyRunnable, found := true, i;
        }
      }
      i := i + 1;
    }
  }

  /**
   * Summarise the children's flags for one of the collective's actions: it
   * is optional unless some child's matching action is mandatory, and
   * runnable only if some child's matching action is runnable. The first
   * result is the summary; the second is the action's own flags, whose
   * optional flag is cleared with the summary's and whose runnable flag is
   * cleared too when no node was given.
   * `actionFlags` is the children's own flag computation.
   */
  method SummaryActionFlags(action: Action, firstChildIsPrimitive: bool, children: seq<SummaryChild>,
                            node: Option<NodeId>, actionFlags: (Action, Option<NodeId>) -> ActionFlags)
    returns (flags: ActionFlags, updated: ActionFlags)
    ensures var task := CloneChildAction(action, firstChildIsPrimitive);
            && (flags.optional <==>
                  forall i :: 0 <= i < |children| ==> ChildOptional(children[i], task, node, actionFlags))
            && (flags.runnable <==>
                  exists i :: 0 <= i < |children| && ChildRunnable(children[i], task, node, actionFlags))
    ensures flags.pseudo && !flags.migrateRunnable
    ensures updated.optional == (action.flags.optional && flags.optional)
    ensures updated.runnable == (action.flags.runnable && (flags.runnable || node.Some?))
    ensures updated.pseudo == action.flags.pseudo
    ensures updated.migrateRunnable == action.flags.migrateRunnable
  {
    var task := CloneChildAction(action, firstChildIsPrimitive);
    var allOptional, anyRunnable := ScanChildren(children, task, node, actionFlags);
    flags := ActionFlags(allOptional, anyRunnable, true, false);
    updated := action.flags.(optional := action.flags.optional && allOptional);
    if !anyRunnable && node.None? {
      updated := updated.(runnable := false);
    }
  }
}

=== FILE: instance_assign.dfy ===
/**
 * Assigning the instances of a collective resource (clone instances or bundle
 * replicas) to nodes: per-node eligibility, banning, the single-instance
 * assignment with its speculative early placement and rollback, the
 * inheritance of the collective's colocations, and the two-pass driver that
 * first keeps instances where they run and then places the rest under the
 * collective's total and per-node limits.
 */
module InstanceAssign {
  import opened Types
  import opened Seqs

  /** A clone instance or bundle replica as far as its assignment is concerned. */
  datatype Instance = Instance(
    provisional: bool,              // not yet assigned
    allocating: bool,               // assignment in progress
    orphan: bool,                   // no longer configured
    failed: bool,
    allowed: NodeTable,             // the instance's own allowed-node table
    current: Option<CurrentNode>,   // where it is active, if anywhere
    location: Option<NodeId>,       // where it is assigned, if anywhere
    thisWith: seq<Colocation>,
    withThis: seq<Colocation>)

  /** The instance's own node-choice (not part of this model): given a node to
      prefer, it returns the chosen node and the instance as left behind. */
  type Assigner = (Instance, Option<NodeId>) -> (Option<NodeId>, Instance)

  /**
   * What the node-choice is relied on to do: it only chooses an allowed node
   * with a non-negative score, it finishes the assignment (no longer
   * provisional, located on the chosen node) and it leaves the assignment
   * flag and the colocation lists alone.
   */
  predicate AssignerStep(i: Instance, out: (Option<NodeId>, Instance)) {
    && (out.0.Some? ==> out.0.value in i.allowed && i.allowed[out.0.value].weight >= 0)
    && !out.1.provisional
    && out.1.location == out.0
    && out.1.allocating == i.allocating
    && out.1.thisWith == i.thisWith
    && out.1.withThis == i.withThis
  }

  ghost predicate SoundAssigner(assign: Assigner) {
    forall i, p :: AssignerStep(i, assign(i, p))
  }

  /**
   * Whether `node` may run `inst`: the instance is not an orphan, the node can
   * run resources, and the collective allows it there with a non-negative
   * score and fewer than `maxPerNode` instances already placed.
   */
  predicate CanRunInstance(inst: Instance, node: NodeId, maxPerNode: int,
                           parent: NodeTable, up: set<NodeId>) {
    && !inst.orphan
    && Available(up, node, 0, false)
    && node in parent
    && parent[node].weight >= 0
    && parent[node].count < maxPerNode
  }

  /** Ban an instance from every allowed node that cannot run it. */
  function BanUnavailable(inst: Instance, maxPerNode: int, parent: NodeTable,
                          up: set<NodeId>): (r: Instance)
    ensures r == inst.(allowed := r.allowed)
    ensures r.allowed.Keys == inst.allowed.Keys
    ensures forall n :: n in r.allowed && CanRunInstance(inst, n, maxPerNode, parent, up) ==>
              r.allowed[n] == inst.allowed[n]
    ensures forall n :: n in r.allowed && !CanRunInstance(inst, n, maxPerNode, parent, up) ==>
              r.allowed[n].weight == -Infinity && r.allowed[n].count == inst.allowed[n].count
  {
    inst.(allowed := map n | n in inst.allowed ::
                      if CanRunInstance(inst, n, maxPerNode, parent, up) then inst.allowed[n]
                      else inst.allowed[n].(weight := -Infinity))
  }

  /** After banning, a node still scored at zero or more can run the instance. */
  lemma UsableAfterBan(inst: Instance, maxPerNode: int, parent: NodeTable, up: set<NodeId>,
                       n: NodeId)
    requires var b := BanUnavailable(inst, maxPerNode, parent, up);
             n in b.allowed && b.allowed[n].weight >= 0
    ensures CanRunInstance(inst, n, maxPerNode, parent, up)
  {
  }

  /** The collective's table with one more instance counted on `n`, if the
      collective has an entry for it. */
  function Bump(parent: NodeTable, n: NodeId): (r: NodeTable)
    ensures r.Keys == parent.Keys
    ensures forall m :: m in r ==> r[m].weight == parent[m].weight
    ensures forall m :: m in r ==> r[m].count == parent[m].count + (if m == n then 1 else 0)
  {
    if n in parent then parent[n := parent[n].(count := parent[n].count + 1)] else parent
  }

  /** The outcome of assigning one instance. */
  datatype AssignOutcome = AssignOutcome(ok: bool, instance: Instance, parent: NodeTable)

  /**
   * Assign one instance, either finally (no preference) or speculatively to a
   * preferred node, counting it on the collective's entry for its node. A
   * speculative choice of any node other than the preferred one is undone:
   * the instance goes back to its table as banned, unassigned.
   */
  function AssignInstance(inst: Instance, prefer: Option<NodeId>, maxPerNode: int,
                          parent: NodeTable, up: set<NodeId>, assign: Assigner): (r: AssignOutcome)
    requires SoundAssigner(assign)
    ensures !inst.provisional ==> r == AssignOutcome(inst.location.Some?, inst, parent)
    ensures inst.provisional && inst.allocating ==> r == AssignOutcome(false, inst, parent)
    ensures inst.provisional && !inst.allocating && prefer.Some?
            && (prefer.value !in inst.allowed || inst.allowed[prefer.value].weight < 0)
            ==> r == AssignOutcome(false, inst, parent)
    ensures inst.provisional && r.ok ==>
              && r.instance.location.Some?
              && !r.instance.provisional
              && r.instance.location.value in inst.allowed
              && r.parent == Bump(parent, r.instance.location.value)
              && (r.instance.location.value in parent ==>
                    parent[r.instance.location.value].count < maxPerNode
                    && parent[r.instance.location.value].weight >= 0)
    ensures inst.provisional && r.ok && prefer.Some? ==> r.instance.location == prefer
    ensures inst.provisional && !r.ok ==> r.parent == parent
    ensures inst.provisional && inst.location.None? && !r.ok ==> r.instance.location.None?
    ensures inst.provisional && !inst.allocating && prefer.Some? && !r.ok
            && prefer.value in inst.allowed && inst.allowed[prefer.value].weight >= 0 ==>
              && r.instance.location.None?
              && (r.instance.provisional ==>
                    r.instance.allowed == BanUnavailable(inst, maxPerNode, parent, up).allowed)
    ensures inst.provisional && !inst.allocating && prefer.None? ==> !r.instance.provisional
    // What the node-choice decides: a final assignment succeeds exactly when
    // it chooses a node; a speculative one exactly when it chooses the
    // preferred node, and any other choice is rolled back.
    ensures inst.provisional && !inst.allocating && prefer.None? ==>
              (r.ok <==> assign(BanUnavailable(inst, maxPerNode, parent, up), prefer).0.Some?)
    ensures inst.provisional && !inst.allocating && prefer.Some?
            && prefer.value in inst.allowed && inst.allowed[prefer.value].weight >= 0 ==>
              var banned := BanUnavailable(inst, maxPerNode, parent, up);
              var chosen := assign(banned, prefer).0;
              && (r.ok <==> chosen == prefer)
              && (chosen.Some? && chosen != prefer ==>
                    && !r.ok
                    && r.instance.provisional
                    && r.instance.location.None?
                    && r.instance.allowed == banned.allowed
                    && r.parent == parent)
    ensures inst.provisional && !inst.allocating && r.ok ==>
              r.instance.location == assign(BanUnavailable(inst, maxPerNode, parent, up), prefer).0
    ensures r.instance.allocating == inst.allocating
    ensures r.instance.thisWith == inst.thisWith && r.instance.withThis == inst.withThis
  {
    if !inst.provisional then AssignOutcome(inst.location.Some?, inst, parent)
    else if inst.allocating then AssignOutcome(false, inst, parent)
    else if prefer.Some? && (prefer.value !in inst.allowed || inst.allowed[prefer.value].weight < 0) then
      AssignOutcome(false, inst, parent)
    else
      var banned := BanUnavailable(inst, maxPerNode, parent, up);
      var out := assign(banned, prefer);
      assert AssignerStep(banned, out);
      var chosen := out.0;
      if prefer.Some? && chosen.Some? && chosen != prefer then
        // Revert: the banned table comes back and the instance is unassigned
        AssignOutcome(false, out.1.(allowed := banned.allowed, provisional := true, location := None), parent)
      else if chosen.Some? then
        UsableAfterBan(inst, maxPerNode, parent, up, chosen.value);
        AssignOutcome(true, out.1, Bump(parent, chosen.value))
      else
        AssignOutcome(false, out.1, parent)
  }

  /** Parent "this with" colocations an instance inherits: all of them when
      `all`, otherwise only negative or +Infinity ones. */
  predicate KeepThisWith(all: bool, c: Colocation) {
    all || c.score < 0 || c.score == Infinity
  }

  /** Parent "with this" colocations an instance inherits: those that
      influence it and, unless `all`, are negative. */
  predicate KeepWithThis(all: bool, c: Colocation, influences: bool) {
    influences && (all || c.score < 0)
  }

  function InheritedThisWith(parentThisWith: seq<Colocation>, all: bool): (r: seq<Colocation>)
    ensures forall c :: c in r <==> c in parentThisWith && KeepThisWith(all, c)
  {
    Filter(parentThisWith, c => KeepThisWith(all, c))
  }

  function InheritedWithThis(parentWithThis: seq<Colocation>, all: bool, child: Instance,
                             influence: (Colocation, Instance) -> bool): (r: seq<Colocation>)
    ensures forall c :: c in r <==> c in parentWithThis && KeepWithThis(all, c, influence(c, child))
  {
    Filter(parentWithThis, c => KeepWithThis(all, c, influence(c, child)))
  }

  /**
   * Give an instance the collective's colocations it should honour: they are
   * appended, in order, after the instance's own.
   */
  function AppendParentColocation(inst: Instance, parentThisWith: seq<Colocation>,
                                  parentWithThis: seq<Colocation>, all: bool,
                                  influence: (Colocation, Instance) -> bool): (r: Instance)
    ensures r == inst.(thisWith := r.thisWith, withThis := r.withThis)
    ensures |inst.thisWith| <= |r.thisWith| && |inst.withThis| <= |r.withThis|
    ensures r.thisWith[..|inst.thisWith|] == inst.thisWith
    ensures r.withThis[..|inst.withThis|] == inst.withThis
    ensures forall c :: c in r.thisWith[|inst.thisWith|..] <==>
              c in parentThisWith && KeepThisWith(all, c)
    ensures forall c :: c in r.withThis[|inst.withThis|..] <==>
              c in parentWithThis && KeepWithThis(all, c, influence(c, inst))
  {
    var tw := inst.thisWith + InheritedThisWith(parentThisWith, all);
    var wt := inst.withThis + InheritedWithThis(parentWithThis, all, inst, influence);
    assert tw[|inst.thisWith|..] == InheritedThisWith(parentThisWith, all);
    assert wt[|inst.withThis|..] == InheritedWithThis(parentWithThis, all, inst, influence);
    inst.(thisWith := tw, withThis := wt)
  }

  /** With `all`, every "this with" colocation of the collective is inherited,
      in its original order. */
  lemma InheritAll(parentThisWith: seq<Colocation>)
    ensures InheritedThisWith(parentThisWith, true) == parentThisWith
  {
    FilterKeepsAll(parentThisWith, c => KeepThisWith(true, c));
  }

  /**
   * Reset the collective's per-node counts to zero, and count the nodes able
   * to run resources.
   */
  function ResetCounts(parent: NodeTable, up: set<NodeId>): (r: (NodeTable, nat))
    ensures r.0.Keys == parent.Keys
    ensures forall n :: n in r.0 ==> r.0[n].weight == parent[n].weight && r.0[n].count == 0
    ensures r.1 <= |parent|
    ensures r.1 == 0 <==> forall n :: n in parent ==> n !in up
  {
    AvailableNodes(parent, up);
    (map n | n in parent :: AllowedNode(parent[n].weight, 0), |parent.Keys * up|)
  }

  /** The available nodes of a table are no more than its nodes, and none
      exactly when no node of the table is usable. */
  lemma AvailableNodes(parent: NodeTable, up: set<NodeId>)
    ensures |parent.Keys * up| <= |parent|
    ensures |parent.Keys * up| == 0 <==> forall n :: n in parent ==> n !in up
  {
    var available := parent.Keys * up;
    assert parent.Keys == available + (parent.Keys - available);
    if exists n :: n in parent && n in up {
      var n :| n in parent && n in up;
      assert n in available;
    }
  }

  /**
   * Whether to inherit all of the collective's colocations: only when there
   * are more available nodes than instances, comparing the instance limit as
   * C does, converted to unsigned.
   */
  function AllColoc(maxTotal: int, available: nat): (r: bool)
    requires IsInt32(maxTotal) && available < Uint32Modulus
    ensures maxTotal >= 0 ==> (r <==> maxTotal < available)
    ensures maxTotal < 0 && available <= 0x8000_0000 ==> !r
  {
    AsUnsigned(maxTotal) < available
  }

  /**
   * The number of instances each available node should ideally get: the
   * total divided among the available nodes, at least one. The division is
   * C's unsigned division, its result converted back to `int`.
   */
  function OptimalPerNode(maxTotal: int, available: nat): (r: int)
    requires IsInt32(maxTotal) && available < Uint32Modulus
    ensures r >= 1
    ensures available == 0 ==> r == 1
    ensures maxTotal >= 0 && available > 0 ==> r == Max(1, maxTotal / available)
    ensures maxTotal >= 0 && available > 0 ==> r == 1 || r * available <= maxTotal
  {
    var quotient := if available > 0 then AsSigned(AsUnsigned(maxTotal) / available) else 0;
    if quotient < 1 then 1 else quotient
  }

  /**
   * The node an instance should keep in the stickiness pass: its current node,
   * if it is active there, still unassigned and not failed, the node is
   * available with its score considered, and the collective does not already
   * have its optimal number of instances there.
   */
  function PreferredNode(inst: Instance, optimal: int, parent: NodeTable,
                         up: set<NodeId>): (r: Option<NodeId>)
    ensures r.Some? <==>
              && inst.current.Some?
              && inst.provisional
              && !inst.failed
              && Available(up, inst.current.value.id, inst.current.value.weight, true)
              && !(inst.current.value.id in parent && parent[inst.current.value.id].count >= optimal)
    ensures r.Some? ==> r.value == inst.current.value.id
  {
    if inst.current.None? || !inst.provisional || inst.failed then None
    else
      var node := inst.current.value;
      if !Available(up, node.id, node.weight, true) then None
      else if node.id in parent && parent[node.id].count >= optimal then None
      else Some(node.id)
  }

  /** How many of the placements landed on `n`. */
  function CountAt(placed: seq<Option<NodeId>>, n: NodeId): nat {
    if |placed| == 0 then 0
    else CountAt(placed[..|placed| - 1], n) + (if placed[|placed| - 1] == Some(n) then 1 else 0)
  }

  /** How many placements there are. */
  function CountPlaced(placed: seq<Option<NodeId>>): nat {
    if |placed| == 0 then 0
    else CountPlaced(placed[..|placed| - 1]) + (if placed[|placed| - 1].Some? then 1 else 0)
  }

  lemma CountAppend(placed: seq<Option<NodeId>>, p: Option<NodeId>)
    ensures CountPlaced(placed + [p]) == CountPlaced(placed) + (if p.Some? then 1 else 0)
    ensures forall n: NodeId :: CountAt(placed + [p], n) == CountAt(placed, n) + (if p == Some(n) then 1 else 0)
  {
    assert (placed + [p])[..|placed|] == placed;
  }

  /** Placements of two passes over the same instances, where an instance is
      placed by at most one of them. */
  function Merge(a: seq<Option<NodeId>>, b: seq<Option<NodeId>>): (r: seq<Option<NodeId>>)
    requires |a| == |b|
    ensures |r| == |a|
    ensures forall k :: 0 <= k < |a| ==> r[k] == (if a[k].Some? then a[k] else b[k])
  {
    seq(|a|, k requires 0 <= k < |a| => if a[k].Some? then a[k] else b[k])
  }

  lemma {:induction false} MergeCounts(a: seq<Option<NodeId>>, b: seq<Option<NodeId>>)
    requires |a| == |b|
    requires forall k :: 0 <= k < |a| ==> a[k].None? || b[k].None?
    ensures CountPlaced(Merge(a, b)) == CountPlaced(a) + CountPlaced(b)
    ensures forall n: NodeId :: CountAt(Merge(a, b), n) == CountAt(a, n) + CountAt(b, n)
  {
    if |a| > 0 {
      var m := |a| - 1;
      MergeCounts(a[..m], b[..m]);
      assert Merge(a, b)[..m] == Merge(a[..m], b[..m]);
    }
  }

  /** The collective's own colocations and the code the driver calls. */
  datatype Context = Context(
    parentThisWith: seq<Colocation>,
    parentWithThis: seq<Colocation>,
    up: set<NodeId>,
    assign: Assigner,
    influence: (Colocation, Instance) -> bool)

  /** An instance as the stickiness pass leaves a reached instance: with the
      inherited colocations appended to its own. */
  predicate Inherited(before: Instance, after: Instance, all: bool, ctx: Context) {
    && after.thisWith == before.thisWith + InheritedThisWith(ctx.parentThisWith, all)
    && after.withThis == before.withThis + InheritedWithThis(ctx.parentWithThis, all, before, ctx.influence)
  }

  /** The collective's table keeps its nodes and scores; its counts are the
      given base plus the placements on each node. */
  ghost predicate CountsFrom(now: NodeTable, base: NodeTable, placed: seq<Option<NodeId>>) {
    && now.Keys == base.Keys
    && forall n :: n in now ==> now[n].weight == base[n].weight
                                && now[n].count == base[n].count + CountAt(placed, n)
  }

  /** Placements that place nothing. */
  function NoPlacements(count: nat): (r: seq<Option<NodeId>>)
    ensures |r| == count
    ensures forall i :: 0 <= i < count ==> r[i].None?
  {
    if count == 0 then [] else NoPlacements(count - 1) + [None]
  }

  /** Padding placements with nothing changes no count. */
  lemma {:induction false} PadCounts(placed: seq<Option<NodeId>>, extra: nat)
    ensures CountPlaced(placed + NoPlacements(extra)) == CountPlaced(placed)
    ensures forall n: NodeId :: CountAt(placed + NoPlacements(extra), n) == CountAt(placed, n)
  {
    if extra > 0 {
      PadCounts(placed, extra - 1);
      assert placed + NoPlacements(extra) == (placed + NoPlacements(extra - 1)) + [None];
      CountAppend(placed + NoPlacements(extra - 1), None);
    } else {
      assert placed + NoPlacements(0) == placed;
    }
  }

  /** Counting one more placement keeps the collective's table in step. */
  lemma CountsStep(table: NodeTable, base: NodeTable, placed: seq<Option<NodeId>>, p: Option<NodeId>)
    requires CountsFrom(table, base, placed)
    ensures CountsFrom(if p.Some? then Bump(table, p.value) else table, base, placed + [p])
  {
    CountAppend(placed, p);
  }

  /**
   * One instance of the stickiness pass: inherit the collective's
   * colocations, then try an early assignment to the preferred node. The
   * third component is the node the instance was newly placed on.
   */
  function StickyStep(inst: Instance, table: NodeTable, optimal: int, maxPerNode: int,
                      all: bool, ctx: Context): (r: (Instance, NodeTable, Option<NodeId>))
    requires SoundAssigner(ctx.assign)
    ensures Inherited(inst, r.0, all, ctx)
    ensures r.1 == (if r.2.Some? then Bump(table, r.2.value) else table)
    ensures r.2.Some? ==>
              && inst.provisional
              && inst.current.Some?
              && r.2 == Some(inst.current.value.id)
              && r.0.location == r.2
              && !r.0.provisional
              && (r.2.value in table ==> table[r.2.value].count < optimal
                                         && table[r.2.value].count < maxPerNode)
    ensures r.0.allocating == inst.allocating
    ensures !inst.provisional ==> !r.0.provisional && r.0.location == inst.location && r.2.None?
    ensures inst.provisional && inst.location.None? ==> r.0.location == r.2
    ensures r.2.Some? <==> KeptOnPreferred(inst, table, optimal, maxPerNode, all, ctx)
  {
    var withColoc := AppendParentColocation(inst, ctx.parentThisWith, ctx.parentWithThis, all, ctx.influence);
    var prefer := PreferredNode(withColoc, optimal, table, ctx.up);
    if prefer.Some? then
      var out := AssignInstance(withColoc, prefer, maxPerNode, table, ctx.up, ctx.assign);
      var banned := BanUnavailable(withColoc, maxPerNode, table, ctx.up);
      assert AssignerStep(banned, ctx.assign(banned, prefer));
      (out.instance, out.parent, if out.ok then out.instance.location else None)
    else
      (withColoc, table, None)
  }

  /**
   * Whether the stickiness pass keeps an instance where it runs, given the
   * collective's table when the pass reaches it: with the collective's
   * colocations added, the instance has a preferred node, it is not being
   * assigned already, and its node-choice, preferring that node, picks it.
   */
  predicate KeptOnPreferred(inst: Instance, table: NodeTable, optimal: int, maxPerNode: int,
                            all: bool, ctx: Context) {
    var w := AppendParentColocation(inst, ctx.parentThisWith, ctx.parentWithThis, all, ctx.influence);
    var p := PreferredNode(w, optimal, table, ctx.up);
    && p.Some?
    && !inst.allocating
    && ctx.assign(BanUnavailable(w, maxPerNode, table, ctx.up), p).0 == p
  }

  /** The collective's table as the pass finds it at instance `j`: the
      given table with the placements of the instances before `j` counted. */
  function TableBefore(base: NodeTable, placed: seq<Option<NodeId>>, j: nat): NodeTable
    requires j <= |placed|
  {
    map n | n in base :: base[n].(count := base[n].count + CountAt(placed[..j], n))
  }

  /** A table counted from `base` is the one the pass finds after the last
      placement. */
  lemma CountsFromTable(table: NodeTable, base: NodeTable, placed: seq<Option<NodeId>>)
    requires CountsFrom(table, base, placed)
    ensures table == TableBefore(base, placed, |placed|)
  {
    assert placed[..|placed|] == placed;
  }

  /** Later placements do not change the table an earlier instance found. */
  lemma TableBeforeExtend(base: NodeTable, placed: seq<Option<NodeId>>, extra: seq<Option<NodeId>>,
                          j: nat)
    requires j <= |placed|
    ensures TableBefore(base, placed + extra, j) == TableBefore(base, placed, j)
  {
    assert (placed + extra)[..j] == placed[..j];
  }

  /** Every instance the pass reached was placed exactly when it was kept on
      its preferred node, judged on the table it found. */
  ghost predicate StickyChoices(insts: seq<Instance>, placed: seq<Option<NodeId>>, base: NodeTable,
                                k: nat, optimal: int, maxPerNode: int, all: bool, ctx: Context)
    requires k <= |insts| && k <= |placed|
  {
    forall j {:trigger KeptOnPreferred(insts[j], TableBefore(base, placed, j), optimal, maxPerNode, all, ctx)}
        :: 0 <= j < k ==>
      (placed[j].Some? <==> KeptOnPreferred(insts[j], TableBefore(base, placed, j), optimal, maxPerNode,
                                             all, ctx))
  }

  /** Extending the placements keeps the choices made so far. */
  lemma StickyChoicesExtend(insts: seq<Instance>, placed: seq<Option<NodeId>>, base: NodeTable,
                            k: nat, optimal: int, maxPerNode: int, all: bool, ctx: Context,
                            extra: seq<Option<NodeId>>)
    requires k <= |insts| && k <= |placed|
    requires StickyChoices(insts, placed, base, k, optimal, maxPerNode, all, ctx)
    ensures StickyChoices(insts, placed + extra, base, k, optimal, maxPerNode, all, ctx)
  {
    forall j | 0 <= j < k
      ensures TableBefore(base, placed + extra, j) == TableBefore(base, placed, j)
      ensures (placed + extra)[j] == placed[j]
    {
      TableBeforeExtend(base, placed, extra, j);
    }
  }

  /** The instance the pass reaches next is placed exactly when it is kept on
      its preferred node, judged on the table the pass has counted so far. */
  lemma StickyChoicesStep(insts: seq<Instance>, table: NodeTable, parent: NodeTable,
                          placed: seq<Option<NodeId>>, k: nat, optimal: int, maxPerNode: int,
                          all: bool, ctx: Context, step: (Instance, NodeTable, Option<NodeId>))
    requires SoundAssigner(ctx.assign)
    requires k < |insts| && |placed| == k
    requires CountsFrom(table, parent, placed)
    requires StickyChoices(insts, placed, parent, k, optimal, maxPerNode, all, ctx)
    requires step == StickyStep(insts[k], table, optimal, maxPerNode, all, ctx)
    ensures StickyChoices(insts, placed + [step.2], parent, k + 1, optimal, maxPerNode, all, ctx)
  {
    StickyChoicesExtend(insts, placed, parent, k, optimal, maxPerNode, all, ctx, [step.2]);
    CountsFromTable(table, parent, placed);
    TableBeforeExtend(parent, placed, [step.2], k);
    assert (placed + [step.2])[k] == step.2;
  }

  /** What the stickiness pass has done to the first `k` instances. */
  ghost predicate StickyDone(insts: seq<Instance>, after: seq<Instance>, placed: seq<Option<NodeId>>,
                             k: nat, all: bool, ctx: Context) {
    && k <= |insts| && |after| == |insts| && |placed| >= k
    && (forall j :: 0 <= j < k ==> Inherited(insts[j], after[j], all, ctx))
    && (forall j :: k <= j < |insts| ==> after[j] == insts[j])
    && (forall j :: 0 <= j < k && placed[j].Some? ==>
          && insts[j].provisional
          && insts[j].current.Some?
          && placed[j] == Some(insts[j].current.value.id)
          && after[j].location == placed[j]
          && !after[j].provisional)
    && (forall j :: 0 <= j < |insts| ==> after[j].allocating == insts[j].allocating)
    && (forall j :: 0 <= j < |insts| && !insts[j].provisional ==>
          !after[j].provisional && after[j].location == insts[j].location)
    && (forall j :: 0 <= j < k && !insts[j].provisional ==> placed[j].None?)
    && (forall j :: 0 <= j < k && insts[j].provisional && insts[j].location.None? ==>
          after[j].location == placed[j])
  }

  lemma StickyDoneStep(insts: seq<Instance>, after: seq<Instance>, placed: seq<Option<NodeId>>,
                       k: nat, all: bool, ctx: Context, table: NodeTable, optimal: int,
                       maxPerNode: int)
    requires SoundAssigner(ctx.assign)
    requires StickyDone(insts, after, placed, k, all, ctx) && k < |insts| && |placed| == k
    ensures var step := StickyStep(insts[k], table, optimal, maxPerNode, all, ctx);
            StickyDone(insts, after[k := step.0], placed + [step.2], k + 1, all, ctx)
  {
  }

  /** The collective's counts after the stickiness pass so far stay within
      the optimal and the per-node limit. */
  ghost predicate WithinLimits(table: NodeTable, optimal: int, maxPerNode: int) {
    forall n :: n in table ==> table[n].count <= optimal && table[n].count <= Max(maxPerNode, 0)
  }

  lemma WithinLimitsStep(inst: Instance, table: NodeTable, optimal: int, maxPerNode: int,
                         all: bool, ctx: Context)
    requires SoundAssigner(ctx.assign)
    requires WithinLimits(table, optimal, maxPerNode)
    ensures WithinLimits(StickyStep(inst, table, optimal, maxPerNode, all, ctx).1, optimal, maxPerNode)
  {
  }

  /** Padding the placements beyond the reached instances keeps what the
      pass has done, and places nothing more. */
  lemma StickyPadded(insts: seq<Instance>, after: seq<Instance>, placed: seq<Option<NodeId>>,
                     k: nat, all: bool, ctx: Context, padded: seq<Option<NodeId>>)
    requires StickyDone(insts, after, placed, k, all, ctx) && |placed| == k
    requires padded == placed + NoPlacements(|insts| - k)
    ensures StickyDone(insts, after, padded, k, all, ctx)
    ensures forall j :: k <= j < |insts| ==> padded[j].None?
  {
  }

  /** One step of the stickiness pass keeps every fact the pass maintains. */
  lemma StickyAdvance(insts: seq<Instance>, after: seq<Instance>, table: NodeTable, parent: NodeTable,
                      placed: seq<Option<NodeId>>, k: nat, optimal: int, maxPerNode: int,
                      maxTotal: int, all: bool, ctx: Context,
                      step: (Instance, NodeTable, Option<NodeId>))
    requires SoundAssigner(ctx.assign)
    requires k < |insts| && |placed| == k
    requires CountsFrom(table, parent, placed) && WithinLimits(table, optimal, maxPerNode)
    requires CountPlaced(placed) < maxTotal
    requires StickyDone(insts, after, placed, k, all, ctx)
    requires step == StickyStep(insts[k], table, optimal, maxPerNode, all, ctx)
    ensures CountsFrom(step.1, parent, placed + [step.2])
    ensures WithinLimits(step.1, optimal, maxPerNode)
    ensures CountPlaced(placed + [step.2]) <= Max(maxTotal, 0)
    ensures StickyDone(insts, after[k := step.0], placed + [step.2], k + 1, all, ctx)
    ensures StickyChoices(insts, placed, parent, k, optimal, maxPerNode, all, ctx) ==>
              StickyChoices(insts, placed + [step.2], parent, k + 1, optimal, maxPerNode, all, ctx)
  {
    if StickyChoices(insts, placed, parent, k, optimal, maxPerNode, all, ctx) {
      StickyChoicesStep(insts, table, parent, placed, k, optimal, maxPerNode, all, ctx, step);
    }
    CountsStep(table, parent, placed, step.2);
    CountAppend(placed, step.2);
    WithinLimitsStep(insts[k], table, optimal, maxPerNode, all, ctx);
    StickyDoneStep(insts, after, placed, k, all, ctx, table, optimal, maxPerNode);
  }

  /**
   * First pass: while fewer than `maxTotal` instances are placed, give each
   * instance its inherited colocations and place it early on its current node
   * when that is its preferred node.
   */
  method StickinessPass(insts: seq<Instance>, parent: NodeTable, maxTotal: int, maxPerNode: int,
                        optimal: int, all: bool, ctx: Context)
    returns (after: seq<Instance>, table: NodeTable, placed: seq<Option<NodeId>>, reached: nat)
    requires SoundAssigner(ctx.assign)
    requires optimal >= 1
    requires forall n :: n in parent ==> parent[n].count == 0
    ensures |after| == |insts| && |placed| == |insts| && reached <= |insts|
    ensures CountsFrom(table, parent, placed)
    ensures WithinLimits(table, optimal, maxPerNode)
    ensures CountPlaced(placed) <= Max(maxTotal, 0)
    ensures reached < |insts| ==> CountPlaced(placed) >= maxTotal
    ensures StickyDone(insts, after, placed, reached, all, ctx)
    ensures forall k :: reached <= k < |insts| ==> placed[k].None?
    // Each reached instance stays on its current node exactly when the
    // node-choice accepts that node, judged on the table the pass had then.
    ensures StickyChoices(insts, placed, parent, reached, optimal, maxPerNode, all, ctx)
  {
    after := insts;
    table := parent;
    placed := [];
    var k := 0;
    while k < |insts| && CountPlaced(placed) < maxTotal
      invariant k <= |insts| && |placed| == k
      invariant CountsFrom(table, parent, placed)
      invariant WithinLimits(table, optimal, maxPerNode)
      invariant CountPlaced(placed) <= Max(maxTotal, 0)
      invariant StickyDone(insts, after, placed, k, all, ctx)
      invariant StickyChoices(insts, placed, parent, k, optimal, maxPerNode, all, ctx)
    {
      var step := StickyStep(insts[k], table, optimal, maxPerNode, all, ctx);
      StickyAdvance(insts, after, table, parent, placed, k, optimal, maxPerNode, maxTotal, all, ctx, step);
      table := step.1;
      placed := placed + [step.2];
      after := after[k := step.0];
      k := k + 1;
    }
    reached := k;
    var padded := placed + NoPlacements(|insts| - k);
    StickyFinish(insts, after, table, parent, placed, k, optimal, maxPerNode, maxTotal, all, ctx, padded);
    placed := padded;
  }

  /** Padding the placements of the instances the pass did not reach keeps
      everything the pass established. */
  lemma StickyFinish(insts: seq<Instance>, after: seq<Instance>, table: NodeTable, parent: NodeTable,
                     placed: seq<Option<NodeId>>, k: nat, optimal: int, maxPerNode: int,
                     maxTotal: int, all: bool, ctx: Context, padded: seq<Option<NodeId>>)
    requires k <= |insts| && |placed| == k
    requires CountsFrom(table, parent, placed)
    requires CountPlaced(placed) <= Max(maxTotal, 0)
    requires StickyDone(insts, after, placed, k, all, ctx)
    requires StickyChoices(insts, placed, parent, k, optimal, maxPerNode, all, ctx)
    requires padded == placed + NoPlacements(|insts| - k)
    ensures |padded| == |insts|
    ensures CountsFrom(table, parent, padded)
    ensures CountPlaced(padded) == CountPlaced(placed)
    ensures StickyDone(insts, after, padded, k, all, ctx)
    ensures forall j :: k <= j < |insts| ==> padded[j].None?
    ensures StickyChoices(insts, padded, parent, k, optimal, maxPerNode, all, ctx)
  {
    StickyPadded(insts, after, placed, k, all, ctx, padded);
    StickyChoicesExtend(insts, placed, parent, k, optimal, maxPerNode, all, ctx, NoPlacements(|insts| - k));
    PadCounts(placed, |insts| - k);
  }

  /** Placements counted over a prefix never exceed those over the whole. */
  lemma {:induction false} CountPrefix(placed: seq<Option<NodeId>>, k: nat)
    requires k <= |placed|
    ensures CountPlaced(placed[..k]) <= CountPlaced(placed)
    decreases |placed|
  {
    if k < |placed| {
      var m := |placed| - 1;
      assert placed[..m][..k] == placed[..k];
      CountPrefix(placed[..m], k);
    } else {
      assert placed[..k] == placed;
    }
  }

  /**
   * One instance of the final pass: a finished instance is skipped; once
   * `maxTotal` instances are placed a still unassigned instance is banned from
   * every node; otherwise it is assigned with no preference. The fourth
   * component tells whether the limit ban was applied.
   */
  function FinalStep(inst: Instance, table: NodeTable, soFar: int, maxTotal: int,
                     maxPerNode: int, ctx: Context): (r: (Instance, NodeTable, Option<NodeId>, bool))
    requires SoundAssigner(ctx.assign)
    ensures r.3 <==> inst.provisional && soFar >= maxTotal
    ensures r.3 ==> r.0 == inst.(allowed := BanAll(inst.allowed))
    ensures r.1 == (if r.2.Some? then Bump(table, r.2.value) else table)
    ensures r.2.Some? ==>
              && inst.provisional
              && soFar < maxTotal
              && r.0.location == r.2
              && !r.0.provisional
              && (r.2.value in table ==> table[r.2.value].count < maxPerNode)
    ensures !inst.provisional ==> r.0 == inst && r.2.None?
    ensures r.0.provisional ==> r.3 || inst.allocating
    ensures r.0.allocating == inst.allocating
    ensures r.0.thisWith == inst.thisWith && r.0.withThis == inst.withThis
    ensures inst.provisional && inst.location.None? ==> r.0.location == r.2
    ensures inst.provisional && !inst.allocating && soFar < maxTotal ==>
              r.2 == FinalChoice(inst, table, maxPerNode, ctx)
    ensures FinalStepFacts(inst, r)
  {
    if !inst.provisional then (inst, table, None, false)
    else if soFar >= maxTotal then
      (inst.(allowed := BanAll(inst.allowed)), table, None, true)
    else
      var out := AssignInstance(inst, None, maxPerNode, table, ctx.up, ctx.assign);
      (out.instance, out.parent, if out.ok then out.instance.location else None, false)
  }

  /** The node an instance's node-choice picks in the final pass: no
      preference, on the collective's table as the pass has counted it. */
  function FinalChoice(inst: Instance, table: NodeTable, maxPerNode: int, ctx: Context): Option<NodeId> {
    ctx.assign(BanUnavailable(inst, maxPerNode, table, ctx.up), None).0
  }

  /** Every unassigned instance among the first `k` that the final pass did
      not ban went exactly where its node-choice put it, judged on the table
      the pass had counted when it reached the instance. */
  ghost predicate FinalChoices(insts: seq<Instance>, placed: seq<Option<NodeId>>, limited: seq<bool>,
                               base: NodeTable, k: nat, maxPerNode: int, ctx: Context)
    requires k <= |insts| && k <= |placed| && k <= |limited|
  {
    forall j {:trigger FinalChoice(insts[j], TableBefore(base, placed, j), maxPerNode, ctx)}
        :: 0 <= j < k && insts[j].provisional && !insts[j].allocating && !limited[j] ==>
      placed[j] == FinalChoice(insts[j], TableBefore(base, placed, j), maxPerNode, ctx)
  }

  /** Extending the placements keeps the final choices made so far. */
  lemma FinalChoicesExtend(insts: seq<Instance>, placed: seq<Option<NodeId>>, limited: seq<bool>,
                           base: NodeTable, k: nat, maxPerNode: int, ctx: Context,
                           extra: seq<Option<NodeId>>, more: seq<bool>)
    requires k <= |insts| && k <= |placed| && k <= |limited|
    requires FinalChoices(insts, placed, limited, base, k, maxPerNode, ctx)
    ensures FinalChoices(insts, placed + extra, limited + more, base, k, maxPerNode, ctx)
  {
    forall j | 0 <= j < k
      ensures TableBefore(base, placed + extra, j) == TableBefore(base, placed, j)
      ensures (placed + extra)[j] == placed[j] && (limited + more)[j] == limited[j]
    {
      TableBeforeExtend(base, placed, extra, j);
    }
  }

  /** Which of the first `k` instances the final pass banned: exactly the
      unassigned ones it reached with the limit already met. */
  ghost predicate LimitedWhenFull(insts: seq<Instance>, placed: seq<Option<NodeId>>, limited: seq<bool>,
                                  k: nat, assignedBefore: nat, maxTotal: int) {
    && k <= |insts| && |placed| == k && |limited| == k
    && (forall j {:trigger limited[j]} :: 0 <= j < k ==>
          (limited[j] <==> insts[j].provisional && assignedBefore + CountPlaced(placed[..j]) >= maxTotal))
  }

  /** What one step of the final pass does to the instance it visits. */
  ghost predicate FinalStepFacts(inst: Instance, step: (Instance, NodeTable, Option<NodeId>, bool)) {
    && (step.3 ==> step.0 == inst.(allowed := BanAll(inst.allowed)) && step.2.None?)
    && (step.2.Some? ==> inst.provisional && step.0.location == step.2 && !step.0.provisional)
    && (!inst.provisional ==> step.0 == inst && step.2.None?)
    && (step.0.provisional ==> step.3 || inst.allocating)
    && step.0.thisWith == inst.thisWith && step.0.withThis == inst.withThis
    && (inst.provisional && inst.location.None? ==> step.0.location == step.2)
  }

  /** What the final pass has done to the first `k` instances, apart from
      which of them it banned. */
  ghost predicate FinalEffects(insts: seq<Instance>, after: seq<Instance>, placed: seq<Option<NodeId>>,
                               limited: seq<bool>, k: nat) {
    && k <= |insts| && |after| == |insts| && |placed| == k && |limited| == k
    && (forall j :: k <= j < |insts| ==> after[j] == insts[j])
    && (forall j :: 0 <= j < k && limited[j] ==>
          after[j] == insts[j].(allowed := BanAll(insts[j].allowed)) && placed[j].None?)
    && (forall j :: 0 <= j < k && placed[j].Some? ==>
          insts[j].provisional && after[j].location == placed[j] && !after[j].provisional)
    && (forall j :: 0 <= j < k && !insts[j].provisional ==> after[j] == insts[j] && placed[j].None?)
    && (forall j :: 0 <= j < k && after[j].provisional ==> limited[j] || insts[j].allocating)
    && (forall j :: 0 <= j < k ==>
          after[j].thisWith == insts[j].thisWith && after[j].withThis == insts[j].withThis)
    && (forall j :: 0 <= j < k && insts[j].provisional && insts[j].location.None? ==>
          after[j].location == placed[j])
  }

  lemma FinalEffectsStep(insts: seq<Instance>, after: seq<Instance>, placed: seq<Option<NodeId>>,
                         limited: seq<bool>, k: nat, step: (Instance, NodeTable, Option<NodeId>, bool))
    requires FinalEffects(insts, after, placed, limited, k) && k < |insts|
    requires FinalStepFacts(insts[k], step)
    ensures FinalEffects(insts, after[k := step.0], placed + [step.2], limited + [step.3], k + 1)
  {
  }

  lemma LimitedStep(insts: seq<Instance>, placed: seq<Option<NodeId>>, limited: seq<bool>,
                    k: nat, assignedBefore: nat, maxTotal: int, p: Option<NodeId>, banned: bool)
    requires LimitedWhenFull(insts, placed, limited, k, assignedBefore, maxTotal) && k < |insts|
    requires banned <==> insts[k].provisional && assignedBefore + CountPlaced(placed) >= maxTotal
    ensures LimitedWhenFull(insts, placed + [p], limited + [banned], k + 1, assignedBefore, maxTotal)
  {
    var placed', limited' := placed + [p], limited + [banned];
    assert placed'[..k] == placed;
    forall j | 0 <= j < k + 1
      ensures limited'[j] <==> insts[j].provisional && assignedBefore + CountPlaced(placed'[..j]) >= maxTotal
    {
      if j < k {
        assert placed'[..j] == placed[..j];
      }
    }
  }

  /** One step of the final pass keeps every fact the pass maintains. */
  lemma FinalAdvance(insts: seq<Instance>, after: seq<Instance>, result: NodeTable, table: NodeTable,
                     placed: seq<Option<NodeId>>, limited: seq<bool>, k: nat, assignedBefore: nat,
                     maxTotal: int, maxPerNode: int, ctx: Context,
                     step: (Instance, NodeTable, Option<NodeId>, bool))
    requires SoundAssigner(ctx.assign)
    requires k < |insts|
    requires FinalEffects(insts, after, placed, limited, k)
    requires LimitedWhenFull(insts, placed, limited, k, assignedBefore, maxTotal)
    requires CountsFrom(result, table, placed)
    requires WithinCap(result, maxPerNode)
    requires assignedBefore + CountPlaced(placed) <= Max(maxTotal, assignedBefore)
    requires step == FinalStep(insts[k], result, assignedBefore + CountPlaced(placed), maxTotal,
                               maxPerNode, ctx)
    ensures FinalEffects(insts, after[k := step.0], placed + [step.2], limited + [step.3], k + 1)
    ensures LimitedWhenFull(insts, placed + [step.2], limited + [step.3], k + 1, assignedBefore, maxTotal)
    ensures CountsFrom(step.1, table, placed + [step.2])
    ensures WithinCap(step.1, maxPerNode)
    ensures assignedBefore + CountPlaced(placed + [step.2]) <= Max(maxTotal, assignedBefore)
    ensures FinalChoices(insts, placed, limited, table, k, maxPerNode, ctx) ==>
              FinalChoices(insts, placed + [step.2], limited + [step.3], table, k + 1, maxPerNode, ctx)
  {
    if FinalChoices(insts, placed, limited, table, k, maxPerNode, ctx) {
      FinalChoicesStep(insts, result, table, placed, limited, k, assignedBefore, maxTotal, maxPerNode,
                       ctx, step);
    }
    FinalEffectsStep(insts, after, placed, limited, k, step);
    LimitedStep(insts, placed, limited, k, assignedBefore, maxTotal, step.2, step.3);
    CountsStep(result, table, placed, step.2);
    CountAppend(placed, step.2);
  }

  /** The instance the final pass reaches next goes where its node-choice
      puts it, unless the pass bans it or it is already settled. */
  lemma FinalChoicesStep(insts: seq<Instance>, result: NodeTable, table: NodeTable,
                         placed: seq<Option<NodeId>>, limited: seq<bool>, k: nat, assignedBefore: nat,
                         maxTotal: int, maxPerNode: int, ctx: Context,
                         step: (Instance, NodeTable, Option<NodeId>, bool))
    requires SoundAssigner(ctx.assign)
    requires k < |insts| && |placed| == k && |limited| == k
    requires CountsFrom(result, table, placed)
    requires FinalChoices(insts, placed, limited, table, k, maxPerNode, ctx)
    requires step == FinalStep(insts[k], result, assignedBefore + CountPlaced(placed), maxTotal,
                               maxPerNode, ctx)
    ensures FinalChoices(insts, placed + [step.2], limited + [step.3], table, k + 1, maxPerNode, ctx)
  {
    FinalChoicesExtend(insts, placed, limited, table, k, maxPerNode, ctx, [step.2], [step.3]);
    CountsFromTable(result, table, placed);
    TableBeforeExtend(table, placed, [step.2], k);
    assert (placed + [step.2])[k] == step.2 && (limited + [step.3])[k] == step.3;
  }

  /** The collective's counts stay within the per-node limit. */
  ghost predicate WithinCap(table: NodeTable, maxPerNode: int) {
    forall n :: n in table ==> table[n].count <= Max(maxPerNode, 0)
  }

  /**
   * Second pass: every instance still unassigned is assigned with no
   * preference while fewer than `maxTotal` are placed, and banned from all
   * nodes once the limit is reached.
   */
  method FinalPass(insts: seq<Instance>, table: NodeTable, assignedBefore: nat, maxTotal: int,
                   maxPerNode: int, ctx: Context)
    returns (after: seq<Instance>, result: NodeTable, placed: seq<Option<NodeId>>, limited: seq<bool>)
    requires SoundAssigner(ctx.assign)
    requires WithinCap(table, maxPerNode)
    ensures FinalEffects(insts, after, placed, limited, |insts|)
    ensures LimitedWhenFull(insts, placed, limited, |insts|, assignedBefore, maxTotal)
    ensures CountsFrom(result, table, placed)
    ensures WithinCap(result, maxPerNode)
    ensures assignedBefore + CountPlaced(placed) <= Max(maxTotal, assignedBefore)
    ensures FinalChoices(insts, placed, limited, table, |insts|, maxPerNode, ctx)
  {
    after := insts;
    result := table;
    placed := [];
    limited := [];
    var k := 0;
    while k < |insts|
      invariant FinalEffects(insts, after, placed, limited, k)
      invariant LimitedWhenFull(insts, placed, limited, k, assignedBefore, maxTotal)
      invariant CountsFrom(result, table, placed)
      invariant WithinCap(result, maxPerNode)
      invariant assignedBefore + CountPlaced(placed) <= Max(maxTotal, assignedBefore)
      invariant FinalChoices(insts, placed, limited, table, k, maxPerNode, ctx)
    {
      var step := FinalStep(insts[k], result, assignedBefore + CountPlaced(placed), maxTotal,
                            maxPerNode, ctx);
      FinalAdvance(insts, after, result, table, placed, limited, k, assignedBefore, maxTotal,
                   maxPerNode, ctx, step);
      result := step.1;
      placed := placed + [step.2];
      limited := limited + [step.3];
      after := after[k := step.0];
      k := k + 1;
    }
  }

  /**
   * What the two passes together did to each instance: a newly placed
   * instance was placed by exactly one pass, was reached by the stickiness
   * pass and so inherited the collective's colocations; banned instances were
   * banned only once the limit was met.
   */
  lemma CombinePasses(insts: seq<Instance>, sticky: seq<Instance>, after: seq<Instance>,
                      placed1: seq<Option<NodeId>>, placed2: seq<Option<NodeId>>, limited: seq<bool>,
                      reached: nat, all: bool, ctx: Context, maxTotal: int)
    requires StickyDone(insts, sticky, placed1, reached, all, ctx) && |placed1| == |insts|
    requires forall k :: reached <= k < |insts| ==> placed1[k].None?
    requires reached < |insts| ==> CountPlaced(placed1) >= maxTotal
    requires FinalEffects(sticky, after, placed2, limited, |insts|)
    requires LimitedWhenFull(sticky, placed2, limited, |insts|, CountPlaced(placed1), maxTotal)
    ensures forall k :: 0 <= k < |insts| ==> placed1[k].None? || placed2[k].None?
    ensures forall k :: 0 <= k < |insts| && Merge(placed1, placed2)[k].Some? ==>
              && insts[k].provisional
              && after[k].location == Merge(placed1, placed2)[k]
              && !after[k].provisional
              && Inherited(insts[k], after[k], all, ctx)
    ensures forall k :: 0 <= k < |insts| && !insts[k].provisional ==>
              Merge(placed1, placed2)[k].None? && !after[k].provisional
              && after[k].location == insts[k].location
    ensures forall k :: 0 <= k < |insts| && limited[k] ==>
              && Merge(placed1, placed2)[k].None?
              && CountPlaced(placed1) + CountPlaced(placed2) >= maxTotal
              && forall n :: n in after[k].allowed ==> after[k].allowed[n].weight == -Infinity
    ensures forall k :: 0 <= k < |insts| && after[k].provisional ==> limited[k] || insts[k].allocating
    ensures forall k :: 0 <= k < |insts| && insts[k].provisional && insts[k].location.None? ==>
              Merge(placed1, placed2)[k] == after[k].location
  {
    var placed := Merge(placed1, placed2);
    forall k | 0 <= k < |insts| && placed[k].Some?
      ensures k < reached && Inherited(insts[k], sticky[k], all, ctx)
      ensures insts[k].provisional && after[k].location == placed[k] && !after[k].provisional
    {
      if placed2[k].Some? {
        // an instance placed by the final pass was reached below the limit
        assert sticky[k].provisional && !limited[k];
        assert CountPlaced(placed1) < maxTotal;
      }
    }
    forall k | 0 <= k < |insts| && limited[k]
      ensures CountPlaced(placed1) + CountPlaced(placed2) >= maxTotal
    {
      CountPrefix(placed2, k);
    }
  }

  /** The collective's table after both passes counts, on each node, the
      instances either pass placed there. */
  lemma CombineCounts(parent: NodeTable, reset: NodeTable, table1: NodeTable, table: NodeTable,
                      placed1: seq<Option<NodeId>>, placed2: seq<Option<NodeId>>, maxPerNode: int)
    requires |placed1| == |placed2|
    requires forall k :: 0 <= k < |placed1| ==> placed1[k].None? || placed2[k].None?
    requires reset.Keys == parent.Keys
    requires forall n :: n in reset ==> reset[n].weight == parent[n].weight && reset[n].count == 0
    requires CountsFrom(table1, reset, placed1) && CountsFrom(table, table1, placed2)
    requires WithinCap(table, maxPerNode)
    ensures table.Keys == parent.Keys
    ensures forall n :: n in table ==> table[n].weight == parent[n].weight
                                       && table[n].count == CountAt(Merge(placed1, placed2), n)
                                       && table[n].count <= Max(maxPerNode, 0)
  {
    MergeCounts(placed1, placed2);
  }

  /**
   * Assign a collective's instances: reset the per-node counts, decide how
   * many instances each node should ideally get and whether to inherit all
   * of the collective's colocations, keep as many instances as possible on
   * their current nodes, then place the rest under the total limit.
   *
   * `placed` tells where each instance was newly placed and `limited` which
   * instances were banned because the limit was reached. `early` and `late`
   * split `placed` between the two passes, `reached` counts the instances
   * the first pass visited and `midway` holds the instances as the first
   * pass left them.
   */
  method AssignInstances(parent: NodeTable, insts: seq<Instance>, maxTotal: int, maxPerNode: int,
                         ctx: Context)
    returns (table: NodeTable, after: seq<Instance>, placed: seq<Option<NodeId>>, limited: seq<bool>,
             early: seq<Option<NodeId>>, late: seq<Option<NodeId>>, reached: nat, midway: seq<Instance>)
    requires SoundAssigner(ctx.assign)
    requires IsInt32(maxTotal) && |parent| < Uint32Modulus
    ensures |after| == |insts| && |placed| == |insts| && |limited| == |insts|
    ensures table.Keys == parent.Keys
    ensures forall n :: n in table ==> table[n].weight == parent[n].weight
                                       && table[n].count == CountAt(placed, n)
                                       && table[n].count <= Max(maxPerNode, 0)
    ensures CountPlaced(placed) <= Max(maxTotal, 0)
    ensures forall k :: 0 <= k < |insts| && placed[k].Some? ==>
              && insts[k].provisional
              && after[k].location == placed[k]
              && !after[k].provisional
              && Inherited(insts[k], after[k], AllColoc(maxTotal, ResetCounts(parent, ctx.up).1), ctx)
    ensures forall k :: 0 <= k < |insts| && !insts[k].provisional ==>
              placed[k].None? && !after[k].provisional && after[k].location == insts[k].location
    ensures forall k :: 0 <= k < |insts| && limited[k] ==>
              placed[k].None? && forall n :: n in after[k].allowed ==> after[k].allowed[n].weight == -Infinity
    ensures CountPlaced(placed) < maxTotal ==> forall k :: 0 <= k < |insts| ==> !limited[k]
    ensures forall k :: 0 <= k < |insts| && after[k].provisional ==> limited[k] || insts[k].allocating
    // An unassigned instance ends up located exactly where it was counted.
    ensures forall k :: 0 <= k < |insts| && insts[k].provisional && insts[k].location.None? ==>
              placed[k] == after[k].location
    ensures |early| == |insts| && |late| == |insts| && |midway| == |insts| && reached <= |insts|
    ensures placed == Merge(early, late)
    // The first pass visits the instances in order, stopping early only at
    // the limit, and keeps each one it visits on its current node exactly
    // when its node-choice accepts that node.
    ensures reached < |insts| ==> CountPlaced(early) >= maxTotal
    ensures forall k :: reached <= k < |insts| ==> early[k].None? && midway[k] == insts[k]
    ensures forall k :: 0 <= k < reached ==>
              Inherited(insts[k], midway[k], AllColoc(maxTotal, ResetCounts(parent, ctx.up).1), ctx)
    ensures StickyChoices(insts, early, ResetCounts(parent, ctx.up).0, reached,
                          OptimalPerNode(maxTotal, ResetCounts(parent, ctx.up).1), maxPerNode,
                          AllColoc(maxTotal, ResetCounts(parent, ctx.up).1), ctx)
    // The final pass puts every instance it neither skips nor bans where
    // its node-choice picks, on the counts of both passes so far.
    ensures FinalChoices(midway, late, limited, TableBefore(ResetCounts(parent, ctx.up).0, early, |insts|),
                         |insts|, maxPerNode, ctx)
  {
    var (reset, available) := ResetCounts(parent, ctx.up);
    AvailableNodes(parent, ctx.up);
    var all := AllColoc(maxTotal, available);
    var optimal := OptimalPerNode(maxTotal, available);
    var table1;
    midway, table1, early, reached := StickinessPass(insts, reset, maxTotal, maxPerNode, optimal, all, ctx);
    CountsFromTable(table1, reset, early);
    after, table, late, limited := FinalPass(midway, table1, CountPlaced(early), maxTotal, maxPerNode, ctx);
    CombinePasses(insts, midway, after, early, late, limited, reached, all, ctx, maxTotal);
    CombineCounts(parent, reset, table1, table, early, late, maxPerNode);
    MergeCounts(early, late);
    placed := Merge(early, late);
  }
}

=== FILE: interleave.dfy ===
/**
 * Orderings between collective resources: whether an ordering is applied
 * instance by instance ("interleaved"), how an instance of one collective is
 * paired with a peer instance of the other on the same node, and which pairs
 * of actions are handed on to the per-pair ordering update.
 */
module Interleave {
  import opened Types
  import opened Actions
  import opened InstanceActions

  /** Resource variants, in the order of the C enumeration. */
  datatype Variant = PrimitiveVariant | GroupVariant | CloneVariant | BundleVariant

  function VariantLevel(v: Variant): nat {
    match v
    case PrimitiveVariant => 0
    case GroupVariant => 1
    case CloneVariant => 2
    case BundleVariant => 3
  }

  /** Clones and bundles. */
  predicate IsCollective(v: Variant) {
    VariantLevel(v) >= VariantLevel(CloneVariant)
  }

  /**
   * An instance of a collective (a clone instance or bundle container) as
   * pairing sees it: its current and next role, the node it runs on and the
   * node it is assigned to, whether it or any of its descendants is blocked,
   * whether it is an orphan, its allowed nodes in the order the node sort
   * gives them, and its actions.
   */
  datatype Peer = Peer(
    id: nat,
    isPrimitive: bool,
    currentRole: Role,
    nextRole: Role,
    runningOn: Option<NodeId>,
    allocatedTo: Option<NodeId>,
    blocked: bool,
    orphan: bool,
    sortedAllowed: seq<NodeId>,
    actions: seq<Action>)

  /** A collective resource: identity, variant, interleave setting and its
      instances. */
  datatype Collective = Collective(id: nat, variant: Variant, interleave: bool, children: seq<Peer>)

  /** An action of an ordering together with its resource, if it has one. */
  datatype OrderAction = OrderAction(action: Action, rsc: Option<Collective>)

  /** The role of an instance now, or the role it is going to. */
  function RoleOf(p: Peer, current: bool): Role {
    if current then p.currentRole else p.nextRole
  }

  /** Where an instance is now, or where it is going. */
  function LocationOf(p: Peer, current: bool): Option<NodeId> {
    if current then p.runningOn else p.allocatedTo
  }

  /** Whether `s` ends with `suffix`. */
  predicate EndsWith(s: string, suffix: string) {
    |suffix| <= |s| && s[|s| - |suffix|..] == suffix
  }

  /**
   * Whether an instance can be paired with instances on `node`: it is in the
   * filtered role (any role when the filter is Unknown), and, unless blocked,
   * located on that node.
   */
  function IsChildCompatible(child: Peer, node: NodeId, filter: Role, current: bool): (r: bool)
    ensures r ==> !child.blocked && LocationOf(child, current) == Some(node)
    ensures r ==> filter == Unknown || RoleOf(child, current) == filter
    ensures (!child.blocked && LocationOf(child, current) == Some(node)
             && (filter == Unknown || RoleOf(child, current) == filter)) ==> r
  {
    var location := if child.blocked then None else LocationOf(child, current);
    if filter != Unknown && RoleOf(child, current) != filter then false
    else location.Some? && location.value == node
  }

  /** An instance is compatible with at most one node. */
  lemma CompatibleWithOneNode(child: Peer, a: NodeId, b: NodeId, filter: Role, current: bool)
    requires IsChildCompatible(child, a, filter, current)
    requires IsChildCompatible(child, b, filter, current)
    ensures a == b
  {
  }

  /** The first instance of `children` compatible with `node`; none when
      there is no node. */
  function FindCompatibleChildByNode(children: seq<Peer>, node: Option<NodeId>, filter: Role,
                                     current: bool): (r: Option<nat>)
    ensures r.Some? ==> node.Some? && r.value < |children|
                        && IsChildCompatible(children[r.value], node.value, filter, current)
                        && forall j :: 0 <= j < r.value ==>
                             !IsChildCompatible(children[j], node.value, filter, current)
    ensures r.None? <==> node.None? || forall j :: 0 <= j < |children| ==>
                                         !IsChildCompatible(children[j], node.value, filter, current)
    decreases |children|
  {
    if node.None? || |children| == 0 then None
    else if IsChildCompatible(children[0], node.value, filter, current) then Some(0)
    else
      var rest := FindCompatibleChildByNode(children[1..], node, filter, current);
      assert forall j :: 1 <= j < |children| ==> children[j] == children[1..][j - 1];
      if rest.None? then None else Some(rest.value + 1)
  }

  /** The first node of `nodes` that some instance of `children` is
      compatible with, and the first such instance. */
  function FirstPairing(children: seq<Peer>, nodes: seq<NodeId>, filter: Role,
                        current: bool): (r: Option<(nat, NodeId)>)
    ensures r.Some? ==> r.value.0 < |children| && r.value.1 in nodes
                        && FindCompatibleChildByNode(children, Some(r.value.1), filter, current)
                           == Some(r.value.0)
    ensures r.None? <==> forall k, j :: 0 <= k < |nodes| && 0 <= j < |children| ==>
                                         !IsChildCompatible(children[j], nodes[k], filter, current)
    // The node is the first one of `nodes` that any instance is compatible with.
    ensures r.Some? ==> exists i :: 0 <= i < |nodes| && nodes[i] == r.value.1
                                    && NoPairingBefore(children, nodes, i, filter, current)
    decreases |nodes|
  {
    if |nodes| == 0 then None
    else
      var here := FindCompatibleChildByNode(children, Some(nodes[0]), filter, current);
      if here.Some? then
        assert NoPairingBefore(children, nodes, 0, filter, current);
        Some((here.value, nodes[0]))
      else
        var rest := FirstPairing(children, nodes[1..], filter, current);
        assert forall k :: 1 <= k < |nodes| ==> nodes[k] == nodes[1..][k - 1];
        if rest.Some? then
          var i :| 0 <= i < |nodes| - 1 && nodes[1..][i] == rest.value.1
                   && NoPairingBefore(children, nodes[1..], i, filter, current);
          assert NoPairingBefore(children, nodes, i + 1, filter, current);
          rest
        else rest
  }

  /** No instance is compatible with any of the first `i` nodes. */
  predicate NoPairingBefore(children: seq<Peer>, nodes: seq<NodeId>, i: nat, filter: Role,
                            current: bool)
    requires i <= |nodes|
  {
    forall k, j :: 0 <= k < i && 0 <= j < |children| ==>
                     !IsChildCompatible(children[j], nodes[k], filter, current)
  }

  /**
   * The peer of `local` among `children`: the first instance compatible with
   * the node `local` is on; if `local` is on no node, the first pairing found
   * by trying its allowed nodes in order.
   */
  function FindCompatibleChild(local: Peer, children: seq<Peer>, filter: Role,
                               current: bool): (r: Option<nat>)
    ensures r.Some? ==> r.value < |children|
    ensures LocationOf(local, current).Some? ==>
              r == FindCompatibleChildByNode(children, LocationOf(local, current), filter, current)
    ensures LocationOf(local, current).None? ==>
              (r.None? <==> forall k, j :: 0 <= k < |local.sortedAllowed| && 0 <= j < |children| ==>
                              !IsChildCompatible(children[j], local.sortedAllowed[k], filter, current))
    ensures r.Some? ==> exists n :: PairedOn(local, n, current)
                                    && IsChildCompatible(children[r.value], n, filter, current)
    // An unlocated instance is paired on the first of its allowed nodes that
    // has a compatible instance, with the first such instance.
    ensures LocationOf(local, current).None? && r.Some? ==>
              var nodes := local.sortedAllowed;
              exists i :: 0 <= i < |nodes|
                          && NoPairingBefore(children, nodes, i, filter, current)
                          && FindCompatibleChildByNode(children, Some(nodes[i]), filter, current) == r
  {
    var node := LocationOf(local, current);
    if node.Some? then
      FindCompatibleChildByNode(children, node, filter, current)
    else
      var pairing := FirstPairing(children, local.sortedAllowed, filter, current);
      if pairing.Some? then Some(pairing.value.0) else None
  }

  /** The nodes on which `local` may be paired: its own node if it has one,
      otherwise its allowed nodes. */
  predicate PairedOn(local: Peer, n: NodeId, current: bool) {
    if LocationOf(local, current).Some? then LocationOf(local, current) == Some(n)
    else n in local.sortedAllowed
  }

  /** The two instances paired with each other run on the same node. */
  lemma PeersShareNode(local: Peer, children: seq<Peer>, filter: Role, current: bool)
    requires LocationOf(local, current).Some?
    requires FindCompatibleChild(local, children, filter, current).Some?
    ensures var j := FindCompatibleChild(local, children, filter, current).value;
            LocationOf(children[j], current) == LocationOf(local, current)
  {
  }

  /** The resource whose interleave setting decides an ordering: the first
      resource when `then` is a stop or demote, otherwise the `then` one. */
  function DecidingResource(first: Collective, second: OrderAction): Collective
    requires second.rsc.Some?
  {
    if EndsWith(second.action.uuid, "_stop_0") || EndsWith(second.action.uuid, "_demote_0")
    then first else second.rsc.value
  }

  /**
   * Whether an ordering between two actions is applied instance by instance:
   * both belong to resources, different ones, both collective, and the
   * deciding resource has interleaving enabled.
   */
  function CanInterleave(first: OrderAction, second: OrderAction): (r: bool)
    ensures r ==> && first.rsc.Some? && second.rsc.Some?
                  && first.rsc.value.id != second.rsc.value.id
                  && IsCollective(first.rsc.value.variant) && IsCollective(second.rsc.value.variant)
    ensures first.rsc.Some? && second.rsc.Some? && first.rsc.value.id != second.rsc.value.id
            && IsCollective(first.rsc.value.variant) && IsCollective(second.rsc.value.variant) ==>
              (r <==> DecidingResource(first.rsc.value, second).interleave)
  {
    if first.rsc.None? || second.rsc.None? then false
    else if first.rsc.value.id == second.rsc.value.id then false
    else if VariantLevel(first.rsc.value.variant) < VariantLevel(CloneVariant)
            || VariantLevel(second.rsc.value.variant) < VariantLevel(CloneVariant) then false
    else DecidingResource(first.rsc.value, second).interleave
  }

  /** The key of an action of a resource with interval 0. */
  function OpKey(rscId: string, task: Task): string {
    rscId + "_" + TaskName(task) + "_0"
  }

  /** A suffix of a concatenation is a suffix of its tail, or contains it. */
  lemma EndsWithConcat(a: string, b: string, suffix: string)
    ensures |suffix| <= |b| ==> (EndsWith(a + b, suffix) <==> EndsWith(b, suffix))
    ensures |suffix| > |b| && EndsWith(a + b, suffix) ==> EndsWith(suffix, b)
  {
    var ab := a + b;
    if |suffix| <= |b| {
      assert ab[|ab| - |suffix|..] == b[|b| - |suffix|..];
    } else if EndsWith(ab, suffix) {
      assert suffix[|suffix| - |b|..] == ab[|ab| - |b|..];
      assert ab[|ab| - |b|..] == b;
    }
  }

  /**
   * For an action key of interval 0, the suffix test that chooses the
   * deciding resource recognises exactly the stop and demote tasks, whatever
   * the resource name.
   */
  lemma StopOrDemoteKey(rscId: string, t: Task)
    ensures EndsWith(OpKey(rscId, t), "_stop_0") || EndsWith(OpKey(rscId, t), "_demote_0")
            <==> t == Stop || t == Demote
  {
    var tail := KeyTail(t);
    assert OpKey(rscId, t) == rscId + tail;
    EndsWithConcat(rscId, tail, "_stop_0");
    EndsWithConcat(rscId, tail, "_demote_0");
    TailSuffixes(t);
  }

  /** The part of a key after the resource name. */
  function KeyTail(t: Task): string {
    "_" + TaskName(t) + "_0"
  }

  /** A string whose character at some position of the would-be suffix
      differs does not end with it. */
  lemma NotSuffixAt(s: string, suffix: string, k: nat)
    requires k < |suffix| <= |s|
    requires s[|s| - |suffix| + k] != suffix[k]
    ensures !EndsWith(s, suffix)
  {
    assert s[|s| - |suffix|..][k] == s[|s| - |suffix| + k];
  }

  /**
   * The suffix tests on the part of a key after the resource name: only the
   * stop task's tail ends in "_stop_0", only the demote task's ends in
   * "_demote_0", and no tail shorter than "_demote_0" is a suffix of it.
   * Each task's tail is examined in a lemma of its own.
   */
  lemma TailSuffixes(t: Task)
    ensures var tail := KeyTail(t);
            && (|"_stop_0"| <= |tail| && (EndsWith(tail, "_stop_0") <==> t == Stop))
            && (|"_demote_0"| <= |tail| ==> (EndsWith(tail, "_demote_0") <==> t == Demote))
            && (|"_demote_0"| > |tail| ==> !EndsWith("_demote_0", tail))
  {
    StopSuffix(t);
    DemoteSuffix(t);
  }

  /** Only the stop task's tail ends in "_stop_0". The cases are split
      into one lemma per task so that each proof stays small. */
  lemma StopSuffix(t: Task)
    ensures |KeyTail(t)| >= 7
    ensures EndsWith(KeyTail(t), "_stop_0") <==> t == Stop
  {
    match t
    case Unspecified => TailOfUnspecified();
    case Monitor => TailOfMonitor();
    case Stop => TailOfStop();
    case Stopped => TailOfStopped();
    case Start => TailOfStart();
    case Started => TailOfStarted();
    case Notify => TailOfNotify();
    case Notified => TailOfNotified();
    case Promote => TailOfPromote();
    case Promoted => TailOfPromoted();
    case Demote => TailOfDemote();
    case Demoted => TailOfDemoted();
    case Shutdown => TailOfShutdown();
    case Fence => TailOfFence();
  }

  /** Only the demote task's tail ends in "_demote_0", and the two shorter
      tails (stop and start) are not suffixes of it. */
  lemma DemoteSuffix(t: Task)
    ensures |KeyTail(t)| >= 9 ==> (EndsWith(KeyTail(t), "_demote_0") <==> t == Demote)
    ensures |KeyTail(t)| < 9 ==> !EndsWith("_demote_0", KeyTail(t))
  {
    match t
    case Unspecified => TailOfUnspecified();
    case Monitor => TailOfMonitor();
    case Stop => TailOfStop();
    case Stopped => TailOfStopped();
    case Start => TailOfStart();
    case Started => TailOfStarted();
    case Notify => TailOfNotify();
    case Notified => TailOfNotified();
    case Promote => TailOfPromote();
    case Promoted => TailOfPromoted();
    case Demote => TailOfDemote();
    case Demoted => TailOfDemoted();
    case Shutdown => TailOfShutdown();
    case Fence => TailOfFence();
  }

  lemma TailOfUnspecified()
    ensures |KeyTail(Task.Unspecified)| >= 9 && !EndsWith(KeyTail(Task.Unspecified), "_stop_0") && !EndsWith(KeyTail(Task.Unspecified), "_demote_0")
  {
    NotSuffixAt(KeyTail(Task.Unspecified), "_stop_0", 0);
    NotSuffixAt(KeyTail(Task.Unspecified), "_demote_0", 1);
  }

  lemma TailOfMonitor()
    ensures |KeyTail(Task.Monitor)| >= 9 && !EndsWith(KeyTail(Task.Monitor), "_stop_0") && !EndsWith(KeyTail(Task.Monitor), "_demote_0")
  {
    NotSuffixAt(KeyTail(Task.Monitor), "_stop_0", 0);
    NotSuffixAt(KeyTail(Task.Monitor), "_demote_0", 0);
  }

  lemma TailOfStop()
    ensures |KeyTail(Task.Stop)| == 7 && EndsWith(KeyTail(Task.Stop), "_stop_0") && !EndsWith("_demote_0", KeyTail(Task.Stop))
  {
    assert KeyTail(Task.Stop)[0..] == KeyTail(Task.Stop);
    NotSuffixAt("_demote_0", KeyTail(Task.Stop), 0);
  }

  lemma TailOfStopped()
    ensures |KeyTail(Task.Stopped)| >= 9 && !EndsWith(KeyTail(Task.Stopped), "_stop_0") && !EndsWith(KeyTail(Task.Stopped), "_demote_0")
  {
    NotSuffixAt(KeyTail(Task.Stopped), "_stop_0", 0);
    NotSuffixAt(KeyTail(Task.Stopped), "_demote_0", 0);
  }

  lemma TailOfStart()
    ensures |KeyTail(Task.Start)| == 8 && !EndsWith(KeyTail(Task.Start), "_stop_0") && !EndsWith("_demote_0", KeyTail(Task.Start))
  {
    NotSuffixAt(KeyTail(Task.Start), "_stop_0", 0);
    NotSuffixAt("_demote_0", KeyTail(Task.Start), 0);
  }

  lemma TailOfStarted()
    ensures |KeyTail(Task.Started)| >= 9 && !EndsWith(KeyTail(Task.Started), "_stop_0") && !EndsWith(KeyTail(Task.Started), "_demote_0")
  {
    NotSuffixAt(KeyTail(Task.Started), "_stop_0", 0);
    NotSuffixAt(KeyTail(Task.Started), "_demote_0", 0);
  }

  lemma TailOfNotify()
    ensures |KeyTail(Task.Notify)| >= 9 && !EndsWith(KeyTail(Task.Notify), "_stop_0") && !EndsWith(KeyTail(Task.Notify), "_demote_0")
  {
    NotSuffixAt(KeyTail(Task.Notify), "_stop_0", 0);
    NotSuffixAt(KeyTail(Task.Notify), "_demote_0", 1);
  }

  lemma TailOfNotified()
    ensures |KeyTail(Task.Notified)| >= 9 && !EndsWith(KeyTail(Task.Notified), "_stop_0") && !EndsWith(KeyTail(Task.Notified), "_demote_0")
  {
    NotSuffixAt(KeyTail(Task.Notified), "_stop_0", 0);
    NotSuffixAt(KeyTail(Task.Notified), "_demote_0", 0);
  }

  lemma TailOfPromote()
    ensures |KeyTail(Task.Promote)| >= 9 && !EndsWith(KeyTail(Task.Promote), "_stop_0") && !EndsWith(KeyTail(Task.Promote), "_demote_0")
  {
    NotSuffixAt(KeyTail(Task.Promote), "_stop_0", 0);
    NotSuffixAt(KeyTail(Task.Promote), "_demote_0", 0);
  }

  lemma TailOfPromoted()
    ensures |KeyTail(Task.Promoted)| >= 9 && !EndsWith(KeyTail(Task.Promoted), "_stop_0") && !EndsWith(KeyTail(Task.Promoted), "_demote_0")
  {
    NotSuffixAt(KeyTail(Task.Promoted), "_stop_0", 0);
    NotSuffixAt(KeyTail(Task.Promoted), "_demote_0", 0);
  }

  lemma TailOfDemote()
    ensures |KeyTail(Task.Demote)| == 9 && !EndsWith(KeyTail(Task.Demote), "_stop_0") && EndsWith(KeyTail(Task.Demote), "_demote_0")
  {
    NotSuffixAt(KeyTail(Task.Demote), "_stop_0", 0);
    assert KeyTail(Task.Demote)[0..] == KeyTail(Task.Demote);
  }

  lemma TailOfDemoted()
    ensures |KeyTail(Task.Demoted)| >= 9 && !EndsWith(KeyTail(Task.Demoted), "_stop_0") && !EndsWith(KeyTail(Task.Demoted), "_demote_0")
  {
    NotSuffixAt(KeyTail(Task.Demoted), "_stop_0", 0);
    NotSuffixAt(KeyTail(Task.Demoted), "_demote_0", 0);
  }

  lemma TailOfShutdown()
    ensures |KeyTail(Task.Shutdown)| >= 9 && !EndsWith(KeyTail(Task.Shutdown), "_stop_0") && !EndsWith(KeyTail(Task.Shutdown), "_demote_0")
  {
    NotSuffixAt(KeyTail(Task.Shutdown), "_stop_0", 0);
    NotSuffixAt(KeyTail(Task.Shutdown), "_demote_0", 0);
  }

  lemma TailOfFence()
    ensures |KeyTail(Task.Fence)| >= 9 && !EndsWith(KeyTail(Task.Fence), "_stop_0") && !EndsWith(KeyTail(Task.Fence), "_demote_0")
  {
    NotSuffixAt(KeyTail(Task.Fence), "_stop_0", 0);
    NotSuffixAt(KeyTail(Task.Fence), "_demote_0", 0);
  }

  /** What the interleaved ordering does for one instance of `then`. */
  datatype InterleaveStep =
    | Ignore                             // no peer, and the ordering is about current state
    | Inhibit                            // no peer: the instance is prevented from being active
    | NoPeer                             // no peer, and the ordering is optional
    | MissingAction                      // a peer, but one of the two actions does not exist
    | Pair(first: Action, second: Action)  // the two actions to order

  /** Whether an ordering's first action is about current state (a stopped
      or demoted action). */
  predicate AboutCurrentState(first: OrderAction) {
    EndsWith(first.action.uuid, "_stopped_0") || EndsWith(first.action.uuid, "_demoted_0")
  }

  /**
   * The step for one instance of `then`: find its peer among the instances of
   * `first`'s resource; with a peer, look up the peer's action for the task
   * the first action means for an instance and the instance's own action for
   * `then`'s task, on `node` if given.
   * `mandatory` tells whether the ordering makes `then` depend on `first`
   * being runnable or implies it.
   */
  function InterleaveChild(first: OrderAction, second: OrderAction, thenChild: Peer,
                           node: Option<NodeId>, mandatory: bool): (r: InterleaveStep)
    requires first.rsc.Some?
    ensures r.Ignore? <==> AboutCurrentState(first)
                           && FindCompatibleChild(thenChild, first.rsc.value.children, Unknown, true).None?
    ensures r.Inhibit? <==> !AboutCurrentState(first) && mandatory
                            && FindCompatibleChild(thenChild, first.rsc.value.children, Unknown, false).None?
    ensures r.Pair? ==>
              var current := AboutCurrentState(first);
              var peer := FindCompatibleChild(thenChild, first.rsc.value.children, Unknown, current);
              var children := first.rsc.value.children;
              && peer.Some?
              && var task := CloneChildAction(first.action, children[0].isPrimitive);
                 && FindFirstAction(children[peer.value].actions, task, node) == Some(r.first)
                 && r.first.task == task
                 && FindFirstAction(thenChild.actions, second.action.task, node) == Some(r.second)
                 && r.second.task == second.action.task
    // With a peer, the two actions are paired exactly when both exist.
    ensures var current := AboutCurrentState(first);
            var children := first.rsc.value.children;
            var peer := FindCompatibleChild(thenChild, children, Unknown, current);
            peer.Some? ==>
              var task := CloneChildAction(first.action, children[0].isPrimitive);
              var firstAction := FindFirstAction(children[peer.value].actions, task, node);
              var thenAction := FindFirstAction(thenChild.actions, second.action.task, node);
              && (r.MissingAction? <==> firstAction.None? || thenAction.None?)
              && (firstAction.Some? && thenAction.Some? ==> r == Pair(firstAction.value, thenAction.value))
    ensures r.NoPeer? <==> !AboutCurrentState(first) && !mandatory
                           && FindCompatibleChild(thenChild, first.rsc.value.children, Unknown, false).None?
  {
    var current := AboutCurrentState(first);
    var children := first.rsc.value.children;
    var peer := FindCompatibleChild(thenChild, children, Unknown, current);
    if peer.None? then
      if current then Ignore
      else if mandatory then Inhibit
      else NoPeer
    else
      var task := CloneChildAction(first.action, children[0].isPrimitive);
      var firstAction := FindFirstAction(children[peer.value].actions, task, node);
      var thenAction := FindFirstAction(thenChild.actions, second.action.task, node);
      if firstAction.None? || thenAction.None? then MissingAction
      else
        FirstMatchHasTask(children[peer.value].actions, task, node);
        FirstMatchHasTask(thenChild.actions, second.action.task, node);
        Pair(firstAction.value, thenAction.value)
  }

  /** An action found by a lookup performs the task looked up. */
  lemma FirstMatchHasTask(actions: seq<Action>, task: Task, node: Option<NodeId>)
    requires FindFirstAction(actions, task, node).Some?
    ensures FindFirstAction(actions, task, node).value.task == task
    ensures node.Some? ==> FindFirstAction(actions, task, node).value.node == node
  {
  }

  /** The actions of `then`'s instances that a non-interleaved ordering
      reaches: each instance's first action for the task (on `node`, if
      given), when it is runnable. */
  function ChildTargets(children: seq<Peer>, task: Task, node: Option<NodeId>,
                        flagsOf: (Action, Option<NodeId>) -> ActionFlags): (r: seq<Action>)
    ensures |r| <= |children|
    ensures forall a :: a in r ==> a.task == task && flagsOf(a, node).runnable
                                   && exists i :: 0 <= i < |children|
                                                  && FindFirstAction(children[i].actions, task, node) == Some(a)
    ensures forall i :: 0 <= i < |children| && FindFirstAction(children[i].actions, task, node).Some?
                        && flagsOf(FindFirstAction(children[i].actions, task, node).value, node).runnable ==>
              FindFirstAction(children[i].actions, task, node).value in r
    decreases |children|
  {
    if |children| == 0 then []
    else
      var rest := ChildTargets(children[1..], task, node, flagsOf);
      assert forall i :: 1 <= i < |children| ==> children[i] == children[1..][i - 1];
      var found := FindFirstAction(children[0].actions, task, node);
      if found.Some? && flagsOf(found.value, node).runnable then
        FirstMatchHasTask(children[0].actions, task, node);
        [found.value] + rest
      else rest
  }

  /** Which action pairs an ordering between collective actions hands on. */
  datatype Targets =
    | Interleaved(steps: seq<InterleaveStep>)
    | Direct(pairs: seq<(Action, Action)>)
    | NoTargets

  /**
   * An ordering whose `then` action belongs to a collective: interleaved,
   * every instance of `then` is paired with its peer; otherwise the ordering
   * applies to `then` itself and to the runnable actions of its instances.
   */
  function MultiUpdateActions(first: OrderAction, second: OrderAction, node: Option<NodeId>,
                              mandatory: bool, flagsOf: (Action, Option<NodeId>) -> ActionFlags)
    : (r: Targets)
    ensures CanInterleave(first, second) <==> r.Interleaved?
    ensures r.Interleaved? ==>
              && |r.steps| == |second.rsc.value.children|
              && forall k :: 0 <= k < |r.steps| ==>
                   r.steps[k] == InterleaveChild(first, second, second.rsc.value.children[k], node, mandatory)
    ensures r.NoTargets? <==> !CanInterleave(first, second) && second.rsc.None?
    ensures r.Direct? ==>
              && |r.pairs| >= 1
              && r.pairs[0] == (first.action, second.action)
              && forall k :: 1 <= k < |r.pairs| ==>
                   && r.pairs[k].0 == first.action
                   && r.pairs[k].1.task == second.action.task
                   && flagsOf(r.pairs[k].1, node).runnable
                   && exists i :: 0 <= i < |second.rsc.value.children|
                                  && FindFirstAction(second.rsc.value.children[i].actions,
                                                     second.action.task, node) == Some(r.pairs[k].1)
    // Every runnable first match of an instance of `then` is ordered after `first`.
    ensures r.Direct? ==>
              var children := second.rsc.value.children;
              forall i :: 0 <= i < |children|
                          && FindFirstAction(children[i].actions, second.action.task, node).Some?
                          && flagsOf(FindFirstAction(children[i].actions, second.action.task, node).value,
                                     node).runnable ==>
                (first.action, FindFirstAction(children[i].actions, second.action.task, node).value)
                  in r.pairs
  {
    if CanInterleave(first, second) then
      var children := second.rsc.value.children;
      Interleaved(seq(|children|, k requires 0 <= k < |children| =>
                        InterleaveChild(first, second, children[k], node, mandatory)))
    else if second.rsc.Some? then
      Direct(DirectPairs(first.action, second.action, second.rsc.value.children, node, flagsOf))
    else NoTargets
  }

  /** The pairs a non-interleaved ordering hands on: `first` before `then`
      itself, then before each runnable first match in `then`'s instances. */
  function DirectPairs(first: Action, second: Action, children: seq<Peer>, node: Option<NodeId>,
                       flagsOf: (Action, Option<NodeId>) -> ActionFlags): (r: seq<(Action, Action)>)
    ensures |r| >= 1 && r[0] == (first, second)
    ensures forall k :: 1 <= k < |r| ==>
              && r[k].0 == first
              && r[k].1.task == second.task
              && flagsOf(r[k].1, node).runnable
              && exists i :: 0 <= i < |children|
                             && FindFirstAction(children[i].actions, second.task, node) == Some(r[k].1)
    ensures forall i :: 0 <= i < |children|
                        && FindFirstAction(children[i].actions, second.task, node).Some?
                        && flagsOf(FindFirstAction(children[i].actions, second.task, node).value,
                                   node).runnable ==>
              (first, FindFirstAction(children[i].actions, second.task, node).value) in r
  {
    var targets := ChildTargets(children, second.task, node, flagsOf);
    var pairs := [(first, second)] + PairAll(first, targets);
    DirectPairsSound(first, second, children, node, flagsOf, targets, pairs);
    DirectPairsComplete(first, second, children, node, flagsOf, targets, pairs);
    pairs
  }

  /** `first` paired with each action of `targets`, in order. */
  function PairAll(first: Action, targets: seq<Action>): (r: seq<(Action, Action)>)
    ensures |r| == |targets|
    ensures forall k :: 0 <= k < |r| ==> r[k] == (first, targets[k])
  {
    seq(|targets|, k requires 0 <= k < |targets| => (first, targets[k]))
  }

  lemma DirectPairsSound(first: Action, second: Action, children: seq<Peer>, node: Option<NodeId>,
                         flagsOf: (Action, Option<NodeId>) -> ActionFlags, targets: seq<Action>,
                         pairs: seq<(Action, Action)>)
    requires targets == ChildTargets(children, second.task, node, flagsOf)
    requires pairs == [(first, second)] + PairAll(first, targets)
    ensures forall k :: 1 <= k < |pairs| ==>
              && pairs[k].0 == first
              && pairs[k].1.task == second.task
              && flagsOf(pairs[k].1, node).runnable
              && exists i :: 0 <= i < |children|
                             && FindFirstAction(children[i].actions, second.task, node) == Some(pairs[k].1)
  {
    forall k | 1 <= k < |pairs|
      ensures pairs[k] == (first, targets[k - 1]) && targets[k - 1] in targets
    {
    }
  }

  lemma DirectPairsComplete(first: Action, second: Action, children: seq<Peer>, node: Option<NodeId>,
                            flagsOf: (Action, Option<NodeId>) -> ActionFlags, targets: seq<Action>,
                            pairs: seq<(Action, Action)>)
    requires targets == ChildTargets(children, second.task, node, flagsOf)
    requires pairs == [(first, second)] + PairAll(first, targets)
    ensures forall i :: 0 <= i < |children|
                        && FindFirstAction(children[i].actions, second.task, node).Some?
                        && flagsOf(FindFirstAction(children[i].actions, second.task, node).value,
                                   node).runnable ==>
              (first, FindFirstAction(children[i].actions, second.task, node).value) in pairs
  {
    forall a | a in targets ensures (first, a) in pairs {
      var k :| 0 <= k < |targets| && targets[k] == a;
      assert pairs[k + 1] == (first, a);
    }
  }
}

=== FILE: primitive_actions.dfy ===
/**
 * The transition functions that start and promote a primitive resource on a
 * node, and the expected-node test of a multiply active resource that is
 * restarted in place.
 */
module PrimitiveActions {
  import opened Types
  import opened Actions

  /** The parts of a resource the transition functions consult. */
  datatype ActionContext = ActionContext(
    stopUnexpected: bool,  // multiple-active policy is "stop unexpected"
    restarting: bool,      // restart actions are being scheduled
    nextRole: Role,
    allocatedTo: Option<NodeId>)

  /**
   * Whether `node` is where a multiply active resource, restarted under the
   * "stop unexpected" policy, remains active: both flags are set, it is not
   * going to stop, and it is assigned to that node.
   */
  predicate IsExpectedNode(ctx: ActionContext, node: NodeId) {
    && ctx.stopUnexpected && ctx.restarting
    && ctx.nextRole.Rank() > Role.Stopped.Rank()
    && ctx.allocatedTo == Some(node)
  }

  /** At most one node is ever the expected node. */
  lemma ExpectedNodeUnique(ctx: ActionContext, a: NodeId, b: NodeId)
    requires IsExpectedNode(ctx, a) && IsExpectedNode(ctx, b)
    ensures a == b
  {
  }

  /**
   * Schedule a start: the start action (as found or created, optional by
   * default) becomes mandatory when it is runnable and the caller asked for a
   * mandatory start, and becomes a pseudo-action on the expected node.
   */
  function StartResource(start: ActionFlags, ctx: ActionContext, node: NodeId,
                         optional: bool): (r: ActionFlags)
    ensures r.runnable == start.runnable && r.migrateRunnable == start.migrateRunnable
    ensures r.optional ==> start.optional
    ensures !r.optional ==> !start.optional || (start.runnable && !optional)
    ensures start.runnable && !optional ==> !r.optional
    ensures r.pseudo <==> start.pseudo || IsExpectedNode(ctx, node)
  {
    var cleared := if start.runnable && !optional then start.(optional := false) else start;
    if IsExpectedNode(ctx, node) then cleared.(pseudo := true) else cleared
  }

  /** An action of `task` located on `node`. */
  predicate OnNodeWith(a: Action, task: Task, node: NodeId) {
    a.task == task && a.node == Some(node)
  }

  /** Whether some action of a list performs `task` on `node`. */
  predicate HasOnNode(actions: seq<Action>, task: Task, node: NodeId) {
    exists i :: 0 <= i < |actions| && OnNodeWith(actions[i], task, node)
  }

  /** Promotion is runnable only if every start on the node is. */
  predicate AllStartsRunnable(actions: seq<Action>, node: NodeId) {
    forall i :: 0 <= i < |actions| && OnNodeWith(actions[i], Start, node) ==> actions[i].flags.runnable
  }

  /** A promote action being scheduled: mandatory if asked so, a
      pseudo-action on the expected node. */
  function SchedulePromote(a: Action, optional: bool, expected: bool): Action {
    a.(flags := a.flags.(optional := a.flags.optional && optional,
                         pseudo := a.flags.pseudo || expected))
  }

  /**
   * Schedule a promotion on a node. If every start there is runnable, the
   * promote action there (found, or else the `created` one appended) is
   * scheduled; otherwise every promote action there is made unrunnable.
   */
  function PromoteResource(actions: seq<Action>, ctx: ActionContext, node: NodeId,
                           optional: bool, created: Action): (r: seq<Action>)
    requires OnNodeWith(created, Promote, node)
    ensures |actions| <= |r| <= |actions| + 1
    ensures forall i :: 0 <= i < |actions| ==>
              && r[i].id == actions[i].id && r[i].task == actions[i].task && r[i].node == actions[i].node
              && (!OnNodeWith(actions[i], Promote, node) ==> r[i] == actions[i])
    ensures AllStartsRunnable(actions, node) ==>
              && HasOnNode(r, Promote, node)
              && (|r| == |actions| <==> HasOnNode(actions, Promote, node))
              && forall i :: 0 <= i < |r| && OnNodeWith(r[i], Promote, node) ==>
                   && (!optional ==> !r[i].flags.optional)
                   && (IsExpectedNode(ctx, node) ==> r[i].flags.pseudo)
                   && (i < |actions| ==> r[i].flags.runnable == actions[i].flags.runnable)
    // Scheduling changes only a promote's optional and pseudo flags: it
    // stays optional only if asked to be, and becomes a pseudo-action
    // exactly on the expected node.
    ensures AllStartsRunnable(actions, node) ==>
              && (|r| > |actions| ==> r[|actions|] == created.(flags := r[|actions|].flags))
              && forall i :: 0 <= i < |r| && OnNodeWith(r[i], Promote, node) ==>
                   var before := if i < |actions| then actions[i] else created;
                   && r[i].flags.optional == (before.flags.optional && optional)
                   && r[i].flags.pseudo == (before.flags.pseudo || IsExpectedNode(ctx, node))
                   && r[i].flags.runnable == before.flags.runnable
                   && r[i].flags.migrateRunnable == before.flags.migrateRunnable
    ensures !AllStartsRunnable(actions, node) ==>
              && |r| == |actions|
              && forall i :: 0 <= i < |r| && OnNodeWith(r[i], Promote, node) ==>
                   !r[i].flags.runnable
  {
    var expected := IsExpectedNode(ctx, node);
    if AllStartsRunnable(actions, node) then
      var updated := seq(|actions|, i requires 0 <= i < |actions| =>
                           if OnNodeWith(actions[i], Promote, node)
                           then SchedulePromote(actions[i], optional, expected)
                           else actions[i]);
      if HasOnNode(actions, Promote, node) then
        ghost var k :| 0 <= k < |actions| && OnNodeWith(actions[k], Promote, node);
        assert OnNodeWith(updated[k], Promote, node);
        updated
      else
        var r := updated + [SchedulePromote(created, optional, expected)];
        assert OnNodeWith(r[|actions|], Promote, node);
        r
    else
      seq(|actions|, i requires 0 <= i < |actions| =>
            if OnNodeWith(actions[i], Promote, node)
            then actions[i].(flags := actions[i].flags.(runnable := false))
            else actions[i])
  }

  /** Promotion does not depend on starts elsewhere: an unrunnable start on
      another node leaves a promotion on this node possible. */
  lemma PromotionIgnoresOtherNodes(actions: seq<Action>, node: NodeId, other: Action)
    requires AllStartsRunnable(actions, node)
    requires other.node != Some(node)
    ensures AllStartsRunnable(actions + [other], node)
  {
  }
}

=== FILE: primitive_assign.dfy ===
/**
 * Choosing a node for a single (primitive) resource: the best-node choice with
 * its preferred-node and current-node tie-breaks, the application of "this
 * with" colocations with score reversion, the mandatory-before-optional order
 * of colocations, and the re-entrancy guard around the whole assignment.
 */
module PrimitiveAssign {
  import opened Types
  import opened Seqs

  /** Whether some node of a table is available with its score considered. */
  predicate AnyAvailable(table: NodeTable, up: set<NodeId>) {
    exists n :: n in table && Available(up, n, table[n].weight, true)
  }

  /**
   * `sorted` lists the nodes of `table` once each, by non-increasing score
   * (the contract of the node sort; its tie order is left open).
   */
  predicate SortedByWeight(table: NodeTable, sorted: seq<NodeId>) {
    && (forall i :: 0 <= i < |sorted| ==> sorted[i] in table)
    && (forall n :: n in table ==> n in sorted)
    && (forall i, j :: 0 <= i < j < |sorted| ==>
          sorted[i] != sorted[j] && table[sorted[i]].weight >= table[sorted[j]].weight)
  }

  /** The first node of a sorted list has the best score of the table. */
  lemma FirstIsBest(table: NodeTable, sorted: seq<NodeId>, n: NodeId)
    requires SortedByWeight(table, sorted) && |sorted| > 0 && n in table
    ensures table[n].weight <= table[sorted[0]].weight
  {
    var j :| 0 <= j < |sorted| && sorted[j] == n;
    if j > 0 {
      assert table[sorted[0]].weight >= table[sorted[j]].weight;
    }
  }

  /** A sorted list is empty exactly when the table is. */
  lemma SortedEmpty(table: NodeTable, sorted: seq<NodeId>)
    requires SortedByWeight(table, sorted)
    ensures |sorted| == 0 <==> table == map[]
  {
    if |sorted| > 0 {
      assert sorted[0] in table;
    }
    if table != map[] {
      var n :| n in table;
      assert n in sorted;
    }
  }

  /** Where the scan of tied nodes stops, every node that ties the best score
      has been seen. */
  lemma TieScanStops(table: NodeTable, sorted: seq<NodeId>, i: nat, running: NodeId)
    requires SortedByWeight(table, sorted) && 1 <= i <= |sorted|
    requires i == |sorted| || table[sorted[i]].weight != table[sorted[0]].weight
    ensures running in table && table[running].weight == table[sorted[0]].weight
            ==> running in sorted[..i]
  {
    if i < |sorted| {
      forall k | i <= k < |sorted|
        ensures table[sorted[k]].weight < table[sorted[0]].weight
      {
        assert table[sorted[0]].weight >= table[sorted[i]].weight;
        if k > i {
          assert table[sorted[i]].weight >= table[sorted[k]].weight;
        }
      }
    }
    if running in table && table[running].weight == table[sorted[0]].weight {
      var j :| 0 <= j < |sorted| && sorted[j] == running;
      assert sorted[..i][j] == running;
    }
  }

  /**
   * Scan the nodes that share the best score, from position `i` on, and pick
   * the running node if it is among them; `chosen` is the pick so far.
   */
  function TieScan(table: NodeTable, sorted: seq<NodeId>, i: nat, chosen: NodeId,
                   running: NodeId): (r: NodeId)
    requires SortedByWeight(table, sorted) && 1 <= i <= |sorted|
    requires forall k :: 0 <= k < i ==> table[sorted[k]].weight == table[sorted[0]].weight
    requires chosen == sorted[0] || chosen == running
    requires chosen == running <==> running in sorted[..i]
    ensures r == sorted[0] || r == running
    ensures r == running <==> running in table && table[running].weight == table[sorted[0]].weight
    decreases |sorted| - i
  {
    if i == |sorted| || table[sorted[i]].weight != table[sorted[0]].weight then
      TieScanStops(table, sorted, i, running);
      chosen
    else
      var next := if sorted[i] == running then running else chosen;
      assert sorted[..i + 1] == sorted[..i] + [sorted[i]];
      TieScan(table, sorted, i + 1, next, running)
  }

  /** A preferred node is taken when it is allowed, scores at least as well as
      the best node, and is available with its score considered. */
  predicate PreferAccepted(table: NodeTable, sorted: seq<NodeId>, prefer: Option<NodeId>,
                           up: set<NodeId>)
    requires SortedByWeight(table, sorted) && |sorted| > 0
  {
    && prefer.Some?
    && prefer.value in table
    && table[prefer.value].weight >= table[sorted[0]].weight
    && Available(up, prefer.value, table[prefer.value].weight, true)
  }

  /**
   * The current node may replace the best node when the resource is not an
   * instance of a unique clone, the best score is positive, the best node is
   * available and the current node is available with its score considered.
   */
  predicate TieBreakApplies(table: NodeTable, sorted: seq<NodeId>, current: Option<CurrentNode>,
                            uniqueCloneInstance: bool, up: set<NodeId>)
    requires SortedByWeight(table, sorted) && |sorted| > 0
  {
    && !uniqueCloneInstance
    && table[sorted[0]].weight > 0
    && Available(up, sorted[0], table[sorted[0]].weight, false)
    && current.Some?
    && Available(up, current.value.id, current.value.weight, true)
  }

  /**
   * The node handed to the assignment: the preferred node when acceptable,
   * otherwise the best-scored node, replaced by the current node when that
   * ties with it.
   */
  function ChooseNode(table: NodeTable, sorted: seq<NodeId>, prefer: Option<NodeId>,
                      current: Option<CurrentNode>, uniqueCloneInstance: bool,
                      up: set<NodeId>): (r: Option<NodeId>)
    requires SortedByWeight(table, sorted)
    ensures r.None? <==> table == map[]
    ensures r.Some? ==> r.value in table
    ensures r.Some? ==> forall n :: n in table ==> table[n].weight <= table[r.value].weight
    ensures |sorted| > 0 && PreferAccepted(table, sorted, prefer, up) ==> r == prefer
    ensures |sorted| > 0 && !PreferAccepted(table, sorted, prefer, up) ==>
              if TieBreakApplies(table, sorted, current, uniqueCloneInstance, up) then
                && (r == Some(sorted[0]) || r == Some(current.value.id))
                && (r == Some(current.value.id) <==>
                      current.value.id in table
                      && table[current.value.id].weight == table[sorted[0]].weight)
              else r == Some(sorted[0])
  {
    SortedEmpty(table, sorted);
    if |sorted| == 0 then None
    else
      var best := sorted[0];
      assert forall n :: n in table ==> table[n].weight <= table[best].weight by {
        forall n | n in table ensures table[n].weight <= table[best].weight {
          FirstIsBest(table, sorted, n);
        }
      }
      if PreferAccepted(table, sorted, prefer, up) then prefer
      else if TieBreakApplies(table, sorted, current, uniqueCloneInstance, up) then
        var running := current.value.id;
        assert sorted[..1] == [best];
        Some(TieScan(table, sorted, 1, best, running))
      else Some(best)
  }

  /** What choosing the best node amounts to. */
  datatype BestNodeOutcome =
    | AlreadyAssigned(hasNode: bool)  // assignment was finished earlier
    | Chosen(node: Option<NodeId>)    // node handed to the assignment

  /**
   * Choose the best allowed node of a resource. A resource whose assignment
   * is already finished only reports whether it has a node; otherwise the
   * explicit preference, or else the node with most free capacity, is tried
   * before the best-scored node.
   */
  function AssignBestNode(unassigned: bool, allocatedTo: Option<NodeId>, table: NodeTable,
                          sorted: seq<NodeId>, prefer: Option<NodeId>, mostFree: Option<NodeId>,
                          current: Option<CurrentNode>, uniqueCloneInstance: bool,
                          up: set<NodeId>): (r: BestNodeOutcome)
    requires SortedByWeight(table, sorted)
    ensures !unassigned ==> r == AlreadyAssigned(allocatedTo.Some?)
    ensures unassigned ==> r.Chosen?
    ensures unassigned && table == map[] ==> r.node.None?
    ensures r.Chosen? && r.node.Some? ==>
              r.node.value in table
              && forall n :: n in table ==> table[n].weight <= table[r.node.value].weight
    ensures unassigned && |sorted| > 0 ==>
              var wanted := if prefer.Some? then prefer else mostFree;
              (PreferAccepted(table, sorted, wanted, up) ==> r.node == wanted)
  {
    if !unassigned then AlreadyAssigned(allocatedTo.Some?)
    else
      var wanted := if prefer.Some? then prefer else mostFree;
      Chosen(ChooseNode(table, sorted, wanted, current, uniqueCloneInstance, up))
  }

  /** A resource that ties the best score on its current node stays there. */
  lemma {:induction false} StaysOnTiedCurrentNode(table: NodeTable, sorted: seq<NodeId>,
                                                  current: CurrentNode, up: set<NodeId>)
    requires SortedByWeight(table, sorted) && |sorted| > 0
    requires current.id in table && table[current.id].weight == table[sorted[0]].weight
    requires table[sorted[0]].weight > 0 && sorted[0] in up
    requires current.id in up && current.weight >= 0
    ensures ChooseNode(table, sorted, None, Some(current), false, up) == Some(current.id)
  {
    assert !PreferAccepted(table, sorted, None, up);
    assert TieBreakApplies(table, sorted, Some(current), false, up);
  }

  /** Colocations that may need their score effect undone. */
  predicate TakesSnapshot(c: Colocation) {
    c.dependentRole.Rank() >= Promoted.Rank() || (c.score < 0 && c.score > -Infinity)
  }

  /**
   * Apply a "this with" colocation to a resource's allowed-node table through
   * `applyScore` (score application is not part of this model), reverting to
   * the table as it was when a snapshot was taken and no node is available
   * afterwards.
   */
  function ApplyThisWith(table: NodeTable, c: Colocation,
                         applyScore: (Colocation, NodeTable) -> NodeTable,
                         up: set<NodeId>): (r: NodeTable)
    ensures r == table || r == applyScore(c, table)
    ensures r != applyScore(c, table) ==> TakesSnapshot(c)
    ensures TakesSnapshot(c) ==> (r == table <==> !AnyAvailable(applyScore(c, table), up) || applyScore(c, table) == table)
  {
    var applied := applyScore(c, table);
    if TakesSnapshot(c) && !AnyAvailable(applied, up) then table else applied
  }

  /** A colocation that takes a snapshot never makes the last available node
      of a resource unavailable. */
  lemma SnapshotKeepsAvailability(table: NodeTable, c: Colocation,
                                  applyScore: (Colocation, NodeTable) -> NodeTable,
                                  up: set<NodeId>)
    requires TakesSnapshot(c) && AnyAvailable(table, up)
    ensures AnyAvailable(ApplyThisWith(table, c, applyScore, up), up)
  {
  }

  /** One colocation application: "this with" colocations move this resource
      toward its primary, "with this" ones add the dependents' preferences. */
  datatype ColocStep = ThisWith(c: Colocation) | WithThis(c: Colocation)

  predicate MandatoryStep(s: ColocStep) {
    IsMandatory(s.c)
  }

  predicate OptionalStep(s: ColocStep) {
    !IsMandatory(s.c)
  }

  /** The steps that apply each colocation of a list. */
  function Tag(cs: seq<Colocation>, thisWith: bool): (r: seq<ColocStep>)
    ensures |r| == |cs|
    ensures forall i :: 0 <= i < |cs| ==> r[i].c == cs[i] && (r[i].ThisWith? <==> thisWith)
  {
    seq(|cs|, i requires 0 <= i < |cs| => if thisWith then ThisWith(cs[i]) else WithThis(cs[i]))
  }

  /**
   * The order colocations are applied in: mandatory "this with", mandatory
   * "with this", then the finite-scored "this with" and "with this" ones.
   */
  function ColocationSchedule(thisWith: seq<Colocation>, withThis: seq<Colocation>): (r: seq<ColocStep>)
    ensures multiset(r) == multiset(Tag(thisWith, true)) + multiset(Tag(withThis, false))
    ensures forall i, j :: 0 <= i < j < |r| && MandatoryStep(r[j]) ==> MandatoryStep(r[i])
    ensures forall i, j :: 0 <= i < j < |r| && MandatoryStep(r[j]) && r[j].ThisWith? ==> r[i].ThisWith?
    ensures forall i, j :: 0 <= i < j < |r| && r[j].ThisWith? ==> r[i].ThisWith? || MandatoryStep(r[i])
  {
    var tw := Tag(thisWith, true);
    var wt := Tag(withThis, false);
    var m1 := Filter(tw, MandatoryStep);
    var m2 := Filter(wt, MandatoryStep);
    var o1 := Filter(tw, OptionalStep);
    var o2 := Filter(wt, OptionalStep);
    FilterPartition(tw, MandatoryStep, OptionalStep);
    FilterPartition(wt, MandatoryStep, OptionalStep);
    ScheduleOrder(m1, m2, o1, o2);
    m1 + m2 + (o1 + o2)
  }

  /** The ordering facts of a schedule built from three segments. */
  lemma ScheduleOrder(m1: seq<ColocStep>, m2: seq<ColocStep>, o1: seq<ColocStep>, o2: seq<ColocStep>)
    requires forall x :: x in m1 ==> MandatoryStep(x) && x.ThisWith?
    requires forall x :: x in m2 ==> MandatoryStep(x) && x.WithThis?
    requires forall x :: x in o1 ==> OptionalStep(x) && x.ThisWith?
    requires forall x :: x in o2 ==> OptionalStep(x) && x.WithThis?
    ensures var r := m1 + m2 + (o1 + o2);
            && (forall i, j :: 0 <= i < j < |r| && MandatoryStep(r[j]) ==> MandatoryStep(r[i]))
            && (forall i, j :: 0 <= i < j < |r| && MandatoryStep(r[j]) && r[j].ThisWith? ==> r[i].ThisWith?)
            && (forall i, j :: 0 <= i < j < |r| && r[j].ThisWith? ==> r[i].ThisWith? || MandatoryStep(r[i]))
  {
    var o := o1 + o2;
    var r := m1 + m2 + o;
    forall k | 0 <= k < |r|
      ensures k < |m1| ==> r[k] in m1
      ensures |m1| <= k < |m1| + |m2| ==> r[k] in m2
      ensures |m1| + |m2| <= k < |m1| + |m2| + |o1| ==> r[k] in o1
      ensures |m1| + |m2| + |o1| <= k ==> r[k] in o2
    {
      if k < |m1| {
        assert r[k] == m1[k];
      } else if k < |m1| + |m2| {
        assert r[k] == m2[k - |m1|];
      } else if k < |m1| + |m2| + |o1| {
        assert r[k] == o1[k - |m1| - |m2|];
      } else {
        assert r[k] == o2[k - |m1| - |m2| - |o1|];
      }
    }
  }

  /** The table after applying a schedule of colocations in order. */
  function ApplySchedule(table: NodeTable, steps: seq<ColocStep>,
                         applyScore: (Colocation, NodeTable) -> NodeTable,
                         addDependent: (Colocation, NodeTable) -> NodeTable,
                         up: set<NodeId>): NodeTable
    decreases |steps|
  {
    if |steps| == 0 then table
    else
      var next := match steps[0]
                  case ThisWith(c) => ApplyThisWith(table, c, applyScore, up)
                  case WithThis(c) => addDependent(c, table);
      ApplySchedule(next, steps[1..], applyScore, addDependent, up)
  }

  /** Assigning a node: a forced assignment takes the node as is, otherwise
      the node must be allowed and available with its score considered. */
  function AssignResource(chosen: Option<NodeId>, force: bool, table: NodeTable,
                          up: set<NodeId>): (r: Option<NodeId>)
    ensures r.Some? ==> r == chosen
    ensures chosen.Some? && force ==> r == chosen
    ensures r.Some? && !force ==>
              r.value in table && Available(up, r.value, table[r.value].weight, true)
    ensures chosen.Some? && chosen.value in table && Available(up, chosen.value, table[chosen.value].weight, true)
            ==> r == chosen
  {
    if chosen.Some?
       && (force || (chosen.value in table && Available(up, chosen.value, table[chosen.value].weight, true)))
    then chosen
    else None
  }

  /** A primitive resource as far as its assignment is concerned. */
  datatype Primitive = Primitive(
    unassigned: bool,             // assignment not finished yet
    assigning: bool,              // assignment in progress (loop detection)
    managed: bool,
    allocatedTo: Option<NodeId>,
    allowed: NodeTable,
    current: Option<CurrentNode>,
    uniqueCloneInstance: bool,
    role: Role,
    nextRole: Role,
    thisWith: seq<Colocation>,
    withThis: seq<Colocation>)

  /** Cluster-wide settings the assignment reads. */
  datatype ClusterFlags = ClusterFlags(quorate: bool, freezeWithoutQuorum: bool,
                                       fencingEnabled: bool, haveFencing: bool, stopAll: bool)

  /** Code the assignment calls but that is not part of this model: score
      application for both colocation directions and the node sort. */
  datatype Collaborators = Collaborators(
    applyScore: (Colocation, NodeTable) -> NodeTable,
    addDependent: (Colocation, NodeTable) -> NodeTable,
    sortNodes: NodeTable -> seq<NodeId>)

  /** The sort returns every allowed node once, best score first. */
  ghost predicate WellBehaved(ext: Collaborators) {
    forall t :: SortedByWeight(t, ext.sortNodes(t))
  }

  /** A resource stays managed unless fencing is enabled without any device. */
  predicate StaysManaged(rsc: Primitive, cluster: ClusterFlags) {
    rsc.managed && !(cluster.fencingEnabled && !cluster.haveFencing)
  }

  /** The next role after the assignment's own adjustments: frozen at the
      current role when raising it is not allowed without quorum. */
  function AdjustedNextRole(rsc: Primitive, cluster: ClusterFlags): (r: Role)
    ensures r == rsc.role || r == rsc.nextRole
    ensures r.Rank() <= Max(rsc.role.Rank(), rsc.nextRole.Rank())
    ensures (!cluster.quorate && cluster.freezeWithoutQuorum && rsc.nextRole != Stopped)
              ==> r.Rank() <= rsc.role.Rank()
    ensures (|| cluster.quorate || !cluster.freezeWithoutQuorum || rsc.nextRole == Stopped
             || rsc.nextRole.Rank() <= rsc.role.Rank()) ==> r == rsc.nextRole
  {
    if rsc.nextRole != Stopped && rsc.nextRole.Rank() > rsc.role.Rank()
       && !cluster.quorate && cluster.freezeWithoutQuorum
    then rsc.role
    else rsc.nextRole
  }

  /**
   * Assign a primitive resource to a node and return that node. A finished
   * assignment is reported as is; re-entering an assignment in progress
   * breaks the loop with no node. Otherwise mandatory colocations are applied
   * before optional ones, a resource that is to stop is banned everywhere,
   * an unmanaged resource stays where it is, and everything else gets the
   * best node.
   */
  function PrimitiveAssignment(rsc: Primitive, prefer: Option<NodeId>, mostFree: Option<NodeId>,
                               cluster: ClusterFlags, up: set<NodeId>,
                               ext: Collaborators): (r: (Option<NodeId>, Primitive))
    requires WellBehaved(ext)
    ensures !rsc.unassigned ==> r == (rsc.allocatedTo, rsc)
    ensures rsc.unassigned && rsc.assigning ==> r == (None, rsc)
    ensures rsc.unassigned && !rsc.assigning ==>
              && !r.1.unassigned
              && !r.1.assigning
              && r.0 == r.1.allocatedTo
              && r.1.allowed.Keys == ApplySchedule(rsc.allowed, ColocationSchedule(rsc.thisWith, rsc.withThis),
                                                   ext.applyScore, ext.addDependent, up).Keys
    ensures rsc.unassigned && !rsc.assigning && !StaysManaged(rsc, cluster) ==>
              && r.0 == (if rsc.current.Some? then Some(rsc.current.value.id) else None)
              && r.1.nextRole == rsc.role
    ensures rsc.unassigned && !rsc.assigning && StaysManaged(rsc, cluster) ==>
              && (cluster.stopAll ==> r.0.None?)
              && (rsc.nextRole == Stopped ==> r.0.None?)
              && (r.0.Some? ==> r.0.value in r.1.allowed
                                && Available(up, r.0.value, r.1.allowed[r.0.value].weight, true))
    // The allowed table is the colocations' result, banned everywhere when
    // the resource is to stop.
    ensures rsc.unassigned && !rsc.assigning && rsc.nextRole != Stopped ==>
              r.1.allowed == ApplySchedule(rsc.allowed, ColocationSchedule(rsc.thisWith, rsc.withThis),
                                           ext.applyScore, ext.addDependent, up)
    ensures rsc.unassigned && !rsc.assigning && rsc.nextRole == Stopped ==>
              forall n :: n in r.1.allowed ==> r.1.allowed[n].weight == -Infinity
    // A managed resource takes the adjusted next role, and, unless
    // everything is to stop, the best node on its table if that node can
    // be assigned.
    ensures rsc.unassigned && !rsc.assigning && StaysManaged(rsc, cluster) ==>
              r.1.nextRole == AdjustedNextRole(rsc, cluster)
    ensures rsc.unassigned && !rsc.assigning && StaysManaged(rsc, cluster) && !cluster.stopAll ==>
              r.0 == AssignResource(AssignBestNode(true, rsc.allocatedTo, r.1.allowed,
                                                   ext.sortNodes(r.1.allowed), prefer, mostFree,
                                                   rsc.current, rsc.uniqueCloneInstance, up).node,
                                    false, r.1.allowed, up)
  {
    if !rsc.unassigned then (rsc.allocatedTo, rsc)
    else if rsc.assigning then (None, rsc)
    else
      var scored := ApplySchedule(rsc.allowed, ColocationSchedule(rsc.thisWith, rsc.withThis),
                                  ext.applyScore, ext.addDependent, up);
      var table := if rsc.nextRole == Stopped then BanAll(scored) else scored;
      var managed := StaysManaged(rsc, cluster);
      var nextRole := if managed then AdjustedNextRole(rsc, cluster) else rsc.role;
      var node :=
        if !managed then
          AssignResource(if rsc.current.Some? then Some(rsc.current.value.id) else None, true, table, up)
        else if cluster.stopAll then
          None
        else
          var sorted := ext.sortNodes(table);
          var outcome := AssignBestNode(true, rsc.allocatedTo, table, sorted, prefer, mostFree,
                                        rsc.current, rsc.uniqueCloneInstance, up);
          AssignResource(outcome.node, false, table, up);
      (node, rsc.(unassigned := false, assigning := false, managed := managed,
                  allocatedTo := node, allowed := table, nextRole := nextRole))
  }
}

=== FILE: roles.dfy ===
/**
 * The role state machine of a primitive resource: the table of immediate next
 * roles, the table of transition functions, and the walks that schedule the
 * transitions from a current role toward a target role (a plain role change,
 * and a restart that brings the resource down and back up).
 */
module RoleMachine {
  import opened Types

  /** The immediate next role on the way from `current` to `target`. */
  function StateMatrix(current: Role, target: Role): Role {
    match current
    case Unknown => (if target == Unknown then Unknown else Stopped)
    case Stopped =>
      (match target
       case Unknown => Stopped
       case Stopped => Stopped
       case Started => Started
       case Unpromoted => Unpromoted
       case Promoted => Unpromoted)
    case Started =>
      (match target
       case Unknown => Stopped
       case Stopped => Stopped
       case Started => Started
       case Unpromoted => Unpromoted
       case Promoted => Promoted)
    case Unpromoted =>
      (match target
       case Unknown => Stopped
       case Stopped => Stopped
       case Started => Stopped
       case Unpromoted => Unpromoted
       case Promoted => Promoted)
    case Promoted =>
      (match target
       case Unknown => Stopped
       case Promoted => Promoted
       case _ => Unpromoted)
  }

  /** The transition functions of the action table; `NoTransition` is an
      empty entry, `RoleError` the entry that aborts the scheduler. */
  datatype Transition =
    | NoTransition
    | StopResource
    | StartResource
    | PromoteResource
    | DemoteResource
    | RoleError

  /** The function that moves a resource directly from `current` to `next`. */
  function ActionMatrix(current: Role, next: Role): Transition {
    match current
    case Unknown => (if next == Stopped then StopResource else RoleError)
    case Stopped =>
      (match next
       case Unknown => RoleError
       case Stopped => NoTransition
       case Started => StartResource
       case Unpromoted => StartResource
       case Promoted => RoleError)
    case Started =>
      (match next
       case Unknown => RoleError
       case Stopped => StopResource
       case Started => NoTransition
       case Unpromoted => NoTransition
       case Promoted => PromoteResource)
    case Unpromoted =>
      (match next
       case Unknown => RoleError
       case Stopped => StopResource
       case Started => StopResource
       case Unpromoted => NoTransition
       case Promoted => PromoteResource)
    case Promoted =>
      (match next
       case Unknown => RoleError
       case Promoted => NoTransition
       case _ => DemoteResource)
  }

  /** Transitions that take a resource toward a lower role. */
  predicate IsDownward(t: Transition) {
    t == StopResource || t == DemoteResource
  }

  /** Transitions that take a resource toward a higher role. */
  predicate IsUpward(t: Transition) {
    t == StartResource || t == PromoteResource
  }

  /** Position of a role on the ladder Stopped < Started/Unpromoted < Promoted,
      with Unknown above everything (it can only be left by stopping). */
  function Level(r: Role): nat {
    match r
    case Stopped => 0
    case Started => 1
    case Unpromoted => 1
    case Promoted => 2
    case Unknown => 3
  }

  /** Whether `target` can be reached from `current` by moving up only. */
  predicate UpwardReachable(current: Role, target: Role) {
    || (current == Stopped && target != Unknown)
    || (current == Started && target == Promoted)
    || (current == Unpromoted && target == Promoted)
  }

  /** A bound on the number of transitions still needed to reach `target`:
      up directly when possible, otherwise down to Stopped and back up. */
  function RoleDistance(current: Role, target: Role): nat {
    if current == target then 0
    else if UpwardReachable(current, target) then Level(target) - Level(current)
    else Level(current) + Level(target)
  }

  /** Every transition the tables select brings the resource strictly closer
      to its target, which is why the walks below terminate. */
  lemma DistanceDecreases(current: Role, target: Role)
    requires current != target
    requires ActionMatrix(current, StateMatrix(current, target)) != NoTransition
    ensures RoleDistance(StateMatrix(current, target), target) < RoleDistance(current, target)
  {
  }

  /** One transition of a walk. */
  datatype Step = Step(from: Role, to: Role, fn: Transition)

  /** The role a walk from `start` ends in. */
  function EndRole(start: Role, path: seq<Step>): Role {
    if |path| == 0 then start else path[|path| - 1].to
  }

  /**
   * The transitions scheduled to take a resource from `role` to `target`:
   * repeatedly look up the next role and the transition function, stopping at
   * the target or at an empty table entry.
   */
  function TransitionPath(role: Role, target: Role): (path: seq<Step>)
    ensures |path| <= RoleDistance(role, target)
    ensures |path| > 0 ==> path[0].from == role
    ensures forall i :: 0 <= i < |path| - 1 ==> path[i].to == path[i + 1].from
    ensures forall i :: 0 <= i < |path| ==>
              && path[i].from != target
              && path[i].to == StateMatrix(path[i].from, target)
              && path[i].fn == ActionMatrix(path[i].from, path[i].to)
              && path[i].fn != NoTransition
              && path[i].fn != RoleError
    ensures var end := EndRole(role, path);
            || end == target
            || (end == Stopped && target == Unknown)
            || (end == Started && target == Unpromoted)
    decreases RoleDistance(role, target)
  {
    if role == target then []
    else
      var next := StateMatrix(role, target);
      var fn := ActionMatrix(role, next);
      if fn == NoTransition then []
      else
        DistanceDecreases(role, target);
        var rest := TransitionPath(next, target);
        assert EndRole(role, [Step(role, next, fn)] + rest) == EndRole(next, rest);
        [Step(role, next, fn)] + rest
  }

  /** No walk is ever longer than three transitions. */
  lemma PathIsShort(role: Role, target: Role)
    ensures |TransitionPath(role, target)| <= 3
  {
  }

  /** Starting a stopped resource as promoted goes through Unpromoted. */
  lemma StoppedToPromoted()
    ensures TransitionPath(Stopped, Promoted)
            == [Step(Stopped, Unpromoted, StartResource), Step(Unpromoted, Promoted, PromoteResource)]
  {
  }

  /** Stopping a promoted resource demotes it first. */
  lemma PromotedToStopped()
    ensures TransitionPath(Promoted, Stopped)
            == [Step(Promoted, Unpromoted, DemoteResource), Step(Unpromoted, Stopped, StopResource)]
  {
  }

  /** The transitions that lead from any role toward Stopped. */
  lemma TowardStopped(r: Role)
    requires r != Stopped
    ensures IsDownward(ActionMatrix(r, StateMatrix(r, Stopped)))
  {
  }

  /** A transition scheduled by a restart: which function, whether it acts on
      the current node (bringing down) or the assigned node (bringing back up),
      and whether it is optional. */
  datatype Scheduled = Scheduled(fn: Transition, onCurrentNode: bool, optional: bool)

  /** The outcome of scheduling a restart. */
  datatype RestartOutcome = RestartOutcome(down: seq<Scheduled>, up: seq<Scheduled>, finalRole: Role)

  /**
   * Bring a resource down to Stopped on its current node, then, unless it is
   * blocked or its next role is lower than its role, back up to its role on
   * its assigned node. Steps down are optional unless a stop is needed; steps
   * up are too, except that promotion is required when `needPromote`.
   */
  function RestartPlan(role: Role, nextRole: Role, blocked: bool, needStop: bool,
                       needPromote: bool): (r: RestartOutcome)
    ensures forall i :: 0 <= i < |r.down| ==>
              && IsDownward(r.down[i].fn)
              && r.down[i].onCurrentNode
              && r.down[i].optional == !needStop
    ensures forall i :: 0 <= i < |r.up| ==>
              && IsUpward(r.up[i].fn)
              && !r.up[i].onCurrentNode
              && (r.up[i].fn == StartResource ==> r.up[i].optional == !needStop)
              && (r.up[i].fn == PromoteResource ==> r.up[i].optional == !(needStop || needPromote))
    ensures r.finalRole == (if !blocked && role.Rank() <= nextRole.Rank() && role != Unknown
                            then role else Stopped)
    // The steps are exactly those of the table walks down and back up.
    ensures var path := TransitionPath(role, Stopped);
            && |r.down| == |path|
            && forall i :: 0 <= i < |path| ==> r.down[i].fn == path[i].fn
    ensures !blocked && role.Rank() <= nextRole.Rank() ==>
              var path := TransitionPath(Stopped, role);
              && |r.up| == |path|
              && (forall i :: 0 <= i < |path| ==> r.up[i].fn == path[i].fn)
              && r.finalRole == EndRole(Stopped, path)
    ensures blocked || role.Rank() > nextRole.Rank() ==> r.up == []
  {
    var down := BringDown(role, needStop);
    if !blocked && role.Rank() <= nextRole.Rank() then
      UpwardSteps(TransitionPath(Stopped, role), role);
      RestartOutcome(down, BringUp(role, needStop, needPromote), EndRole(Stopped, TransitionPath(Stopped, role)))
    else
      RestartOutcome(down, [], Stopped)
  }

  /** The steps down to Stopped on the current node, optional unless a stop
      is needed. */
  function BringDown(role: Role, needStop: bool): (r: seq<Scheduled>)
    ensures var path := TransitionPath(role, Stopped);
            && |r| == |path|
            && forall i :: 0 <= i < |r| ==>
                 && r[i].fn == path[i].fn
                 && IsDownward(r[i].fn)
                 && r[i].onCurrentNode
                 && r[i].optional == !needStop
  {
    var path := TransitionPath(role, Stopped);
    forall i | 0 <= i < |path| ensures IsDownward(path[i].fn) {
      TowardStopped(path[i].from);
    }
    Bringing(path, true, needStop, false)
  }

  /** The steps from Stopped back up to `role` on the assigned node: starts
      optional unless a stop is needed, promotions also required when a
      promotion is. */
  function BringUp(role: Role, needStop: bool, needPromote: bool): (r: seq<Scheduled>)
    ensures var path := TransitionPath(Stopped, role);
            && |r| == |path|
            && forall i :: 0 <= i < |r| ==>
                 && r[i].fn == path[i].fn
                 && IsUpward(r[i].fn)
                 && !r[i].onCurrentNode
                 && (r[i].fn == StartResource ==> r[i].optional == !needStop)
                 && (r[i].fn == PromoteResource ==> r[i].optional == !(needStop || needPromote))
  {
    var path := TransitionPath(Stopped, role);
    UpwardSteps(path, role);
    Bringing(path, false, needStop, needPromote)
  }

  /** Schedule the steps of a walk on one node: each is optional unless a
      stop is needed, or, for a step into Promoted, a promotion. */
  function Bringing(path: seq<Step>, onCurrentNode: bool, needStop: bool, needPromote: bool)
    : (r: seq<Scheduled>)
    ensures |r| == |path|
    ensures forall i :: 0 <= i < |r| ==>
              r[i] == Scheduled(path[i].fn, onCurrentNode,
                                !(needStop || (path[i].to == Promoted && needPromote)))
  {
    seq(|path|, i requires 0 <= i < |path| =>
          Scheduled(path[i].fn, onCurrentNode, !(needStop || (path[i].to == Promoted && needPromote))))
  }

  /** The walk from Stopped up to a role uses only upward transitions, and a
      promotion is exactly a step that arrives at Promoted. */
  lemma UpwardSteps(upPath: seq<Step>, role: Role)
    requires upPath == TransitionPath(Stopped, role)
    ensures forall i :: 0 <= i < |upPath| ==>
              && IsUpward(upPath[i].fn)
              && (upPath[i].fn == PromoteResource <==> upPath[i].to == Promoted)
    ensures role != Unknown ==> EndRole(Stopped, upPath) == role
    ensures role == Unknown ==> upPath == []
  {
    if role == Promoted {
      StoppedToPromoted();
    }
  }

  /**
   * When no next role has been configured, the next role defaults to Stopped
   * for an unassigned resource and Started for an assigned one; the second
   * component tells whether the role was explicit.
   */
  function DefaultNextRole(nextRole: Role, allocatedTo: Option<NodeId>): (r: (Role, bool))
    ensures r.1 <==> nextRole != Unknown
    ensures r.0 != Unknown
    ensures nextRole != Unknown ==> r.0 == nextRole
    ensures nextRole == Unknown ==> (r.0 == Started <==> allocatedTo.Some?)
    ensures nextRole == Unknown && allocatedTo.None? ==> r.0 == Stopped
  {
    if nextRole != Unknown then (nextRole, true)
    else if allocatedTo.None? then (Stopped, false)
    else (Started, false)
  }

  /** Defaulting is idempotent: once set, the next role counts as explicit. */
  lemma DefaultNextRoleIdempotent(nextRole: Role, allocatedTo: Option<NodeId>)
    ensures DefaultNextRole(DefaultNextRole(nextRole, allocatedTo).0, allocatedTo)
            == (DefaultNextRole(nextRole, allocatedTo).0, true)
  {
  }

  /**
   * The walk scheduled after defaulting the next role reaches it, except that
   * Started and Unpromoted are the same running state for the walk.
   */
  lemma {:induction false} DefaultedWalkReachesTarget(role: Role, nextRole: Role,
                                                      allocatedTo: Option<NodeId>)
    ensures var target := DefaultNextRole(nextRole, allocatedTo).0;
            var end := EndRole(role, TransitionPath(role, target));
            end == target || (end == Started && target == Unpromoted)
  {
    var target := DefaultNextRole(nextRole, allocatedTo).0;
    assert target != Unknown;
  }
}

=== FILE: seqs.dfy ===
/**
 * Order-preserving filtering of lists, the shape of the scheduler's loops that
 * walk a GList and keep the elements a condition selects.
 */
module Seqs {

  /** The elements of `s` that satisfy `p`, in their original order. */
  function Filter<T(!new)>(s: seq<T>, p: T -> bool): (r: seq<T>)
    ensures |r| <= |s|
    ensures forall x :: x in r <==> x in s && p(x)
  {
    if |s| == 0 then [] else (if p(s[0]) then [s[0]] else []) + Filter(s[1..], p)
  }

  /** When every element is selected, filtering is the identity. */
  lemma {:induction false} FilterKeepsAll<T(!new)>(s: seq<T>, p: T -> bool)
    requires forall x :: x in s ==> p(x)
    ensures Filter(s, p) == s
  {
    if |s| > 0 {
      assert s[0] in s;
      forall x | x in s[1..] ensures p(x) {
        assert x in s;
      }
      FilterKeepsAll(s[1..], p);
      assert s == [s[0]] + s[1..];
    }
  }

  /** A condition and its negation split a list into two parts that together
      hold exactly its elements. */
  lemma {:induction false} FilterPartition<T(!new)>(s: seq<T>, p: T -> bool, q: T -> bool)
    requires forall x :: q(x) == !p(x)
    ensures multiset(Filter(s, p)) + multiset(Filter(s, q)) == multiset(s)
  {
    if |s| > 0 {
      FilterPartition(s[1..], p, q);
      assert s == [s[0]] + s[1..];
    }
  }
}

=== FILE: types.dfy ===
/**
 * Shared vocabulary of the scheduler model: optional values, node identities,
 * scores with their INFINITY sentinels, per-node allowed-node entries, the
 * resource role enumeration and colocation constraints.
 */
module Types {

  /** A value that may be absent (a NULL pointer in the scheduler). */
  datatype Option<+T> = None | Some(value: T)

  /** Nodes are referred to by a stable identity. */
  type NodeId = nat

  /**
   * The score that means "always" (and its negation "never"). Scores are
   * clamped to this range by the scheduler's score arithmetic.
   */
  const Infinity: int := 1_000_000

  /**
   * A resource's entry for one node: its placement score and the scratch
   * count of a collective's instances already placed there.
   */
  datatype AllowedNode = AllowedNode(weight: int, count: int)

  /** A resource's allowed-node table, keyed by node identity. */
  type NodeTable = map<NodeId, AllowedNode>

  /** The node a resource is currently active on, as the node object the
      scheduler holds for it (its weight is that object's own score). */
  datatype CurrentNode = CurrentNode(id: NodeId, weight: int)

  /**
   * Whether a node can run resources: it is among the usable nodes `up`
   * (online, clean, not in standby or maintenance) and, when the score is to
   * be considered, its score is not negative.
   */
  predicate Available(up: set<NodeId>, node: NodeId, weight: int, considerScore: bool) {
    node in up && (!considerScore || weight >= 0)
  }

  /** Every node of a table banned: its score becomes -Infinity. */
  function BanAll(table: NodeTable): (r: NodeTable)
    ensures r.Keys == table.Keys
    ensures forall n :: n in r ==> r[n].weight == -Infinity && r[n].count == table[n].count
  {
    map n | n in table :: AllowedNode(-Infinity, table[n].count)
  }

  /** Resource roles, in the order of the scheduler's enumeration. */
  datatype Role = Unknown | Stopped | Started | Unpromoted | Promoted {
    /** Position in the enumeration; role comparisons use it. */
    function Rank(): nat {
      match this
      case Unknown => 0
      case Stopped => 1
      case Started => 2
      case Unpromoted => 3
      case Promoted => 4
    }
  }

  /**
   * A colocation constraint as seen from one resource: its identity, its
   * score (possibly +/-Infinity) and the role the dependent must have.
   */
  datatype Colocation = Colocation(id: nat, score: int, dependentRole: Role)

  /** Mandatory colocations carry an infinite score of either sign. */
  predicate IsMandatory(c: Colocation) {
    c.score <= -Infinity || c.score >= Infinity
  }

  function Max(a: int, b: int): int {
    if a < b then b else a
  }

  /** The modulus of C's 32-bit unsigned arithmetic. */
  const Uint32Modulus: int := 0x1_0000_0000

  /** Values representable by a C `int`. */
  predicate IsInt32(x: int) {
    -0x8000_0000 <= x < 0x8000_0000
  }

  /** C's conversion of an `int` to `unsigned int` (wrap-around). */
  function AsUnsigned(x: int): (u: nat)
    requires IsInt32(x)
    ensures u < Uint32Modulus
    ensures x >= 0 ==> u == x
    ensures x < 0 ==> u >= 0x8000_0000
  {
    if x < 0 then x + Uint32Modulus else x
  }

  /** C's conversion of an `unsigned int` back to `int` (two's complement). */
  function AsSigned(u: nat): (x: int)
    requires u < Uint32Modulus
    ensures IsInt32(x)
    ensures u < 0x8000_0000 ==> x == u
  {
    if u < 0x8000_0000 then u else u - Uint32Modulus
  }
}
